=== FILE: README.md ===
# ldap_entry convergence planner

A Dafny model of the `ldap_entry` provider of the ldap cookbook
(`libraries/provider_entry.rb`). The `:create` action takes the desired entry
and the entry read from the directory. When the directory has no entry, it adds
the whole entry. Otherwise it sends up to three `modify_entry` batches, always
in this order:

- `add_keys`, for the attributes the entry lacks;
- `update_keys`, appends and replaces of the attributes it has;
- `prune_keys`, whole-attribute or value-level deletes.

The `:delete` action removes the entry if it exists.

The model is pure. `Planner.Plan` returns what the action would hand to the
directory client, as an `Outcome`:

- `Create(attrs)`: one `add_entry`;
- `Modify(addOps, updateOps, pruneOps)`: the three batches;
- `Crash(attr)`: the `NoMethodError` that a value-level prune of a name missing from the target raises.

The Ruby pieces are reproduced exactly, within the limits listed under "Left out":

- `Array#-`, `Array#&` and `Array#|` (`RubyArray`);
- the insertion-ordered `Hash` with `[]=`, `delete` and `merge` (`RubyHash`);
- the case-insensitive `CICPHash`, as a hash keyed by lower-cased names (`CaseInsensitiveHash`);
- `String#downcase` and `String#split` (`RubyString`);
- `Array#sort` under `String#<=>` (`RubySort`).

Modules:

| file | module | contents |
|---|---|---|
| wrappers.dfy | `Wrappers` | `Option`, for Ruby's `nil` |
| ruby_string.dfy | `RubyString` | `downcase`, `split` |
| ruby_array.dfy | `RubyArray` | `-`, `&`, `\|` |
| ruby_sort.dfy | `RubySort` | `sort` and the fact that two sorts agree exactly on permutations |
| ruby_hash.dfy | `RubyHash`, `CaseInsensitiveHash` | `Hash`, `CICPHash.new.merge` |
| entry_model.dfy | `EntryModel` | values, prune specs, op triples, outcomes |
| planner.dfy | `Planner` | the two actions, stage by stage, with per-stage contracts |
| plan_properties.dfy | `PlanProperties` | properties of the whole plan |
| plan_examples.dfy | `PlanExamples` | four small resources where the code does something unexpected |

The code has several quirks, and the model keeps them:

- The `reject` calls at lines 81 and 94 throw their result away. A whole-pruned or emptied name therefore stays in `all_attribute_names`.
- The test at line 107 is always true. Every add therefore carries `[all_attributes[attr]]`, a list wrapped once more, and a pruned name carries `[nil]` (`Payload.Wrapped`).
- The replace test at line 132 reads `new_attributes`: the desired and seeded values, before append and before prune.
- The identity check at line 120 compares the lower-cased name with the text before the first `=` of the DN, exactly as that text is written.
- The current entry is read with the name as written in the prune spec (lines 82, 98). It is read with the lower-cased name everywhere else.

## Behaviour worth knowing

Each of these follows from the code as written, and the model keeps it.

- **Seeds replace desired values.** Every seed name the entry lacks is filled (line 65), and the seed value, as a list, replaces a desired value for that name (line 67). See `Planner.NewAttributes`.
- **Append merges over the target.** `all_attributes` is `new_attributes.merge(append_attributes)` (line 70), so for an attribute the entry lacks, the add carries the appended value alone.
- **Append and replace are independent.** Lines 122 and 132 test them separately, so one attribute can get both an `:add` and a `:replace` in the same batch.
- **Adds are wrapped.** Line 107 always wraps the value, so a seeded `sn => ["z"]` is sent as `[:add, "sn", [["z"]]]`. A name removed by a whole-attribute prune is still added, with `[nil]`, because the add list is taken from the names of line 71 (lines 81, 106–108). See `PlanExamples.SeedFillsMissingName` and `PlanExamples.WholePruneOfMissingNameAddsNil`.
- **Pruning a desired value plans nothing.** The prune list loses the values the target shares with it before it is compared with the entry (lines 89–91, 99). The replace test reads the unpruned desired list (line 132). So desiring `[x, y]` on an entry holding `[x, y]` while pruning `[y, z]` yields three empty batches. See `PlanExamples.ValuePruneOfDesiredValuePlansNothing`.
- **Identity protection covers the update batch only.** Line 120 skips identity attributes when updating. The add batch (lines 106–109) and the prune batch (lines 79–101) do not check for them.
- **A run does not always converge.** A whole-attribute prune of a desired name the entry lacks adds that name with `[nil]` on every run. A name desired as `[x]` and appended with `[y]` alternates for ever: on an entry holding `[x]` the plan adds `y`, and on `[x, y]` it replaces the list with `[x]` (lines 122–137). See `PlanExamples.AppendAndReplaceAlternate`. `PlanProperties.ConvergedIsNoOp` states conditions under which a run plans nothing.
- **A value-level prune can raise.** For a name the target lacks, line 88 stores `nil`, `nil & values` at line 89 gives `false`, and `nil - false` at line 90 raises `NoMethodError`. The model returns this as `Crash` rather than excluding it by a precondition. `PlanProperties.PlanPruneSpec` names inputs that cannot raise (a sufficient condition).

## Model

| member | source | states |
|---|---|---|
| RubyString.Lower | libraries/provider_entry.rb:41 | `downcase` keeps the length, turns each upper-case letter into its lower-case letter, keeps every other character, and leaves no upper-case letter |
| RubyString.LowerAll | libraries/provider_entry.rb:61-62 | `keys.map { downcase }` lower-cases each name in place, and is the identity on lower-case names |
| RubyString.Fields | libraries/provider_entry.rb:118 | the fields of a split contain no separator, and joining them with it gives the string back |
| RubyString.Split | libraries/provider_entry.rb:118 | `split('=')` has no field only when every character of the DN is `=`; its first field is a prefix of the DN ending at the end or at an `=` |
| Planner.RdnName | libraries/provider_entry.rb:118 | `split('=').first` is `nil` exactly for a DN made only of `=`; otherwise it is the text before the first `=` |
| Planner.MatchesDn | libraries/provider_entry.rb:120 | `attr =~ /DN/i` holds exactly when some `d` is directly followed by an `n`, both in either case |
| Planner.RdnPrefixUnique | libraries/provider_entry.rb:118-120 | a name equals `dn.split('=').first` exactly when the DN is not all `=` and the name is the `=`-free prefix of the DN that ends at an `=` or at the end |
| Planner.Protected | libraries/provider_entry.rb:118-120 | a name is skipped as an identity attribute exactly when it contains `dn` in any case or is the text of the DN before its first `=`, compared as written |
| RubyArray.Minus | libraries/provider_entry.rb:90-91 | `a - b` holds exactly the elements of `a` not in `b`, and is no longer than `a` (its order is stated by `RubyArray.MinusConcat`) |
| RubyArray.MinusConcat | libraries/provider_entry.rb:106 | `a - b` keeps `a`'s order: `(a + c) - b` is `(a - b) + (c - b)` |
| RubyArray.MinusCounts | libraries/provider_entry.rb:90 | `a - b` keeps every occurrence of a surviving element and none of a removed one |
| RubyArray.MinusCongruent | libraries/provider_entry.rb:89-90 | `a - b` depends on `b` only through which elements of `a` it holds, so `a - (a & v)` is `a - v` |
| RubyArray.MinusCovered | libraries/provider_entry.rb:106 | `a - b` is empty when `b` holds every element of `a` |
| RubyArray.Inter | libraries/provider_entry.rb:89 | `a & b` holds exactly the shared elements, each once (its order is stated by `RubyArray.InterOrder`) |
| RubyArray.InterOrder | libraries/provider_entry.rb:114 | `a & b` lists the shared elements in the order of their first occurrence in `a` |
| RubyArray.Union | libraries/provider_entry.rb:142 | `a \| b` holds exactly the elements of either, each once, and is empty only when both are |
| RubyHash.Lookup | libraries/provider_entry.rb:122 | `h[k]` is non-nil exactly for a key of `h`, and is the value paired with it |
| RubyHash.Store | libraries/provider_entry.rb:41 | after `h[k] = v`, only `k` reads differently; an existing key keeps its place, a new one goes last; keys stay unique |
| RubyHash.Remove | libraries/provider_entry.rb:80 | after `h.delete(k)`, only `k` reads differently, as `nil`; the other keys keep their order |
| RubyHash.StoreAbsent | libraries/provider_entry.rb:41 | storing a key the hash lacks appends the pair |
| RubyHash.RemoveAbsent | libraries/provider_entry.rb:80 | deleting a key the hash lacks changes nothing |
| RubyHash.Merge | libraries/provider_entry.rb:70 | `a.merge(b)` reads `b` on the keys of `b` and `a` elsewhere, and has the keys of both |
| RubyHash.MergeIsMapUnion | libraries/provider_entry.rb:55-56 | as finite maps, `merge` is the union in which the right-hand side wins |
| RubyHash.UniqueKeysDistinct | libraries/provider_entry.rb:40 | a hash without repeated keys is one whose key list is duplicate-free, and conversely |
| CaseInsensitiveHash.FromHash | libraries/provider_entry.rb:49-51 | `CICPHash.new.merge(h)` has lower-cased keys, none twice, and they are exactly the keys of `h` lower-cased |
| CaseInsensitiveHash.FromHashLastWins | libraries/provider_entry.rb:49-51 | of keys equal up to case, the value of the last one is kept |
| CaseInsensitiveHash.FoldedNames | libraries/provider_entry.rb:71 | lower-casing the keys of a case-insensitive hash lists them unchanged |
| Planner.FoldFrom | libraries/provider_entry.rb:40-42 | the loop `h[k.downcase] = h.delete(k)` leaves the untouched keys and the lower-cased moved ones, none twice |
| Planner.FoldKeys | libraries/provider_entry.rb:40-42 | the desired attributes after the loop have exactly the original names lower-cased as keys |
| PlanProperties.FoldKeysCollisionFree | libraries/provider_entry.rb:40-42 | when no two desired names are equal up to case, the loop keeps every value under its lower-cased name, in the original order |
| PlanProperties.PlanIgnoresDesiredCase | libraries/provider_entry.rb:39-42 | when no two names of either hash are equal up to case, two desired hashes that agree once their names are lower-cased give the same plan |
| Planner.SeedFill | libraries/provider_entry.rb:65-68 | each seed name given is stored with its value as a list (a bare string becomes `[s]`); every other name reads as before |
| Planner.NewAttributes | libraries/provider_entry.rb:61-68 | `new_attributes` reads the seed, as a list, for a seed name the entry lacks, and the desired value otherwise |
| Planner.AllAttributes | libraries/provider_entry.rb:70 | `all_attributes` has lower-cased keys, none twice |
| PlanProperties.AllAttributesKeys | libraries/provider_entry.rb:61-71 | the names of `all_attributes` are the desired and appended names and the seed names the entry lacks |
| Planner.Plan | libraries/provider_entry.rb:53-59 | the whole entry is added exactly when the directory has no entry |
| Planner.PlanModify | libraries/provider_entry.rb:59 | on an existing entry the action never adds the whole entry |
| PlanProperties.PlanCreateSpec | libraries/provider_entry.rb:53-58 | with no entry, one whole-entry add whose names are exactly the mentioned names lower-cased; on a shared name append wins over seed, which wins over desired |
| Planner.PruneWhole | libraries/provider_entry.rb:76-84 | whole-attribute prune: each name, lower-cased, is gone from the target and nothing else changes; there is one `[:delete, name, nil]` per listed name the entry has, and no other op |
| Planner.PruneValueTarget | libraries/provider_entry.rb:86-96 | a value-level step for a name the target has leaves it `target - values`, drops the name once that is empty, and changes no other name |
| Planner.ValueDeletesSpec | libraries/provider_entry.rb:98-100 | a value-level step makes at most one delete, only for a name the entry has, with a non-empty duplicate-free list that holds exactly the prune values the target lacked and the entry holds |
| Planner.PruneValueSpec | libraries/provider_entry.rb:86-101 | a value-level step raises exactly when the target lacks the name; otherwise it changes the target and deletes as the two lemmas above say |
| Planner.PruneValuesSound | libraries/provider_entry.rb:86-101 | the value-level prune raises only for a prune name, and each delete names a prune key the entry has and only values both the entry and the prune list hold |
| Planner.PruneWholeCounts | libraries/provider_entry.rb:78-84 | the whole-attribute prune deletes each name the entry has exactly as many times as the prune list names it, and no name the entry lacks |
| Planner.PrunedReadSpec | libraries/provider_entry.rb:86-96 | with no two prune names equal up to case, the batch reading of the target holds, at each prune name lower-cased, the target's list less that pair's values, or nothing once the list is empty; every other name reads as before |
| Planner.PruneValuesExact | libraries/provider_entry.rb:86-101 | with no two prune names equal up to case and each in the target, the value-level prune does not raise, its deletes are, in hash order, each pair's delete worked out against the target as it stood before the prune, and its target reads as `PrunedReadSpec` describes |
| Planner.PruneValuesNoCrash | libraries/provider_entry.rb:86-90 | if no two prune names are equal up to case and each is in the target, the value-level prune does not raise |
| PlanProperties.PlanPruneSpec | libraries/provider_entry.rb:73-101 | the prune batch of the plan: whole-attribute prune never raises and deletes exactly the listed names the entry has, each as often as listed; value-level deletes are sound; a raise names a prune key; no raise when the prune names are case-distinct and planned, and then the deletes are the batch of `PruneValuesExact` read against the attributes before the prune |
| Planner.AddOps | libraries/provider_entry.rb:104-109 | one `[:add, name, [target[name]]]` for each listed name the entry lacks, and no other op |
| PlanProperties.PlanAddSpec | libraries/provider_entry.rb:104-109 | every add wraps its value and names a mentioned name the entry lacks; each such name is added; after a whole-attribute prune, a pruned name is still added, with `[nil]`; after a value-level prune with case-distinct names in the attributes, each such name is added with what the prune left of its list, or `[nil]` once the list emptied |
| Planner.AppendOpsValues | libraries/provider_entry.rb:122-130 | the append of an attribute is at most one `:add`, holding exactly the appended values the entry lacks, and present exactly when some appended value is missing |
| Planner.ReplaceOpsSpec | libraries/provider_entry.rb:132-138 | the replace of an attribute is one `:replace` with the desired list, present exactly when that list is non-empty and not a permutation of the entry's |
| Planner.UpdateForSpec | libraries/provider_entry.rb:114-139 | per attribute: nothing for an identity attribute; otherwise at most an `:add` then a `:replace`, each sound and each present whenever called for |
| Planner.UpdateOpsCounts | libraries/provider_entry.rb:112-139 | over the distinct names from `&`, the update batch names each one exactly as often as that name's own updates, and no other name |
| Planner.UpdateOpsOrdered | libraries/provider_entry.rb:112-139 | over distinct names, any two update ops on the same name are an `:add` followed by a `:replace`, so each name has at most one of each |
| Planner.UpdateOpsSpec | libraries/provider_entry.rb:112-139 | the update batch holds only sound updates of the names it runs over, and every append and replace those names call for |
| PlanProperties.UpdateNames | libraries/provider_entry.rb:114 | the update batch runs over names the entry has that are desired or appended, and covers every such name |
| PlanProperties.UpdateBatch | libraries/provider_entry.rb:112-139 | the update batch, stated against the desired hash itself rather than the seeded one, for names the entry has |
| PlanProperties.PlanUpdateSpec | libraries/provider_entry.rb:112-139 | update ops name only desired or appended names the entry has, never an identity attribute; an `:add` is exactly the appended values the entry lacks; a `:replace` is the non-empty desired list when it is not the entry's up to order; every such op is present; per name there is at most one `:add` and at most one `:replace`, the `:add` first |
| RubySort.Sort | libraries/provider_entry.rb:135 | `sort` returns a sorted permutation of its argument |
| RubySort.InsertSorted | libraries/provider_entry.rb:135 | inserting into a sorted list keeps it sorted |
| RubySort.SortedUnique | libraries/provider_entry.rb:135 | two sorted lists that are permutations of each other are equal |
| RubySort.SortEqualIffPermutation | libraries/provider_entry.rb:135 | `a.sort == b.sort` exactly when `a` and `b` are permutations of each other |
| RubySort.StrLeTotal | libraries/provider_entry.rb:135 | `String#<=>` orders any two strings |
| RubySort.StrLeAntisymmetric | libraries/provider_entry.rb:135 | two strings ordered both ways are equal |
| RubySort.StrLeTransitive | libraries/provider_entry.rb:135 | the string order is transitive |
| PlanProperties.ReplaceSettles | libraries/provider_entry.rb:132-137 | once the entry holds the desired list of a name, no later plan replaces that name |
| PlanProperties.UpdateForSettled | libraries/provider_entry.rb:114-139 | an attribute with no append left and a matching desired list gets no update |
| PlanProperties.UpdateOpsSettled | libraries/provider_entry.rb:112-139 | a batch of such attributes is empty |
| PlanProperties.ConvergedIsNoOp | libraries/provider_entry.rb:141-161 | with no prune, every mentioned name present, each desired list matched up to order and every appended value present, the plan has three empty batches and reports no change |
| Planner.Batches | libraries/provider_entry.rb:142-158 | the `modify_entry` calls are the non-empty batches, add then update then prune, and together carry every op in that order |
| PlanProperties.ChangedIffBatches | libraries/provider_entry.rb:142-160 | `updated_by_last_action` is set on an existing entry exactly when some batch is sent |
| Planner.PlanDelete | libraries/provider_entry.rb:166-177 | `:delete` deletes exactly when there is an entry, and by the entry's own DN |
| PlanExamples.ValuePruneOfDesiredValuePlansNothing | libraries/provider_entry.rb:86-101 | desired `desc = [x, y]`, entry `desc = [x, y]`, prune `desc => [y, z]`: the plan is three empty batches |
| PlanExamples.WholePruneOfMissingNameAddsNil | libraries/provider_entry.rb:79-84 | a whole-attribute prune of a desired name the entry lacks: the only op is `[:add, "desc", [nil]]` |
| PlanExamples.AppendAndReplaceAlternate | libraries/provider_entry.rb:122-137 | `desc` desired as `[x]` and appended with `[y]`: on an entry holding `[x]` the only op is `[:add, "desc", [y]]`; on `[x, y]` the only op is `[:replace, "desc", [x]]` |
| PlanExamples.SeedFillsMissingName | libraries/provider_entry.rb:61-68 | seeds `cn` and `sn` on an entry with `cn`: the only op is `[:add, "sn", [["z"]]]` |

## Left out

- `load_current_resource` (lines 179–195) fetches the entry through `Chef::Ldap`. Its result is the `current` input of `Plan`.
- `load_connection_info` (lines 197–209) is connection plumbing with no bearing on the plan, so it is not modelled.
- The calls `add_entry`, `modify_entry` and `delete_entry` are not modelled; the model returns what they would be handed. `Chef::Log`, `converge_by` and why-run support are left out too. `updated_by_last_action` is the predicate `Planner.Changed`.
- The `CICPHash` library is not part of this model. It is abstracted as a hash keyed by lower-cased names, which forgets the first-seen casing the library keeps for display.
- `String#downcase` is modelled on ASCII letters only; Ruby's full Unicode case mapping is left out.
- The current entry's attribute names are assumed to be lower-case, which is a precondition of `Plan` (`Planner.WellFormedInput`). The directory client that produces them is not part of this model.
- Partial failure across batches is left out. A rejected `modify_entry` stops the run in the directory client, which is outside the model, and the code has no rollback.
- Ruby type errors are left out, except the modelled prune crash. A value is a `String` or an `Array` of strings (`EntryModel.Value`); numbers, nested arrays and `false` values are not modelled.
- Prune names are taken as strings. The `to_s` of line 76 on symbols is not modelled. Value-level prune keys (line 77) get no `to_s` in the source, and a symbol key there never satisfies `key?` at line 98, since the entry's keys are strings (line 189). Such a key would never plan a delete, and that is not modelled either.
- Planner.PlanModify: its own contract says only that the outcome is not a whole-entry add. What it computes is stated by `PlanProperties.PlanAddSpec`, `PlanUpdateSpec` and `PlanPruneSpec`.
- Planner.AllAttributes: its own contract states only the shape of the keys. Its names are given by `PlanProperties.AllAttributesKeys` and its values by `NewAttributes` and `RubyHash.Merge`.
- Planner.PruneValuesNoCrash: it gives a sufficient condition for the value-level prune not to raise, not an exact one. The exact condition depends on earlier steps emptying and dropping names.
- PlanProperties.ConvergedIsNoOp: it covers only runs with nothing to prune. A prune list is not idempotent in the code; for example, a whole-prune of a desired name the entry lacks re-adds it on every run. It also needs every appended value present and every desired list matched, which a name both desired and appended with other values never reaches (`PlanExamples.AppendAndReplaceAlternate`).
- RubyArray.Minus: its own contract states membership and length. That it keeps `a`'s order is stated by `RubyArray.MinusConcat`.
- RubyArray.Inter: its own contract states membership and distinctness. That it keeps the order of first occurrence in `a` is stated by `RubyArray.InterOrder`, kept apart so that every proof using `a & b` does not carry it.

=== FILE: entry_model.dfy ===
/**
 The data the `ldap_entry` provider works on: attribute values as a Chef
 resource carries them, the prune specification, the current directory entry
 and the modification triples handed to the directory client.
 */
module EntryModel {
  import opened Wrappers
  import opened RubyHash

  /** An attribute value as a resource carries it: a bare `String` or an `Array` of them. */
  datatype Value = Str(s: string) | List(items: seq<string>)

  /** `v.is_a?(String) ? [v] : v`. */
  function AsList(v: Value): seq<string> {
    match v
    case Str(s) => [s]
    case List(items) => items
  }

  /**
   The resource's `prune` property: an `Array` of attribute names to remove
   whole, or a `Hash` from attribute names to the values to remove.
   */
  datatype PruneSpec = Whole(names: seq<string>) | ByValue(values: Hash<Value>)

  /** The modification kinds of section 4.6 of RFC 4511. */
  datatype Kind = Add | Replace | Delete

  /** The third element of a `[kind, attr, values]` triple, as the Ruby value it is. */
  datatype Payload =
    | Nil                           // `nil`: the whole attribute
    | Vals(items: seq<string>)      // an `Array` of strings
    | Wrapped(inner: Option<Value>) // the one-element `Array` `[x]`, where `x` may be `nil`

  datatype Op = Op(kind: Kind, name: string, payload: Payload)

  /** The names the ops act on, in order. */
  function OpNames(ops: seq<Op>): seq<string> {
    seq(|ops|, i requires 0 <= i < |ops| => ops[i].name)
  }

  lemma OpNamesConcat(a: seq<Op>, b: seq<Op>)
    ensures OpNames(a + b) == OpNames(a) + OpNames(b)
  {
  }

  /** The entry as read from the directory: its DN and its attributes. */
  datatype CurrentEntry = CurrentEntry(dn: string, attrs: Hash<seq<string>>)

  /** The effect of one `:create` run. */
  datatype Outcome =
    | Create(attrs: Hash<Value>)                                      // one `add_entry` of the whole entry
    | Modify(addOps: seq<Op>, updateOps: seq<Op>, pruneOps: seq<Op>)  // the three `modify_entry` batches
    | Crash(attr: string)                                             // a `NoMethodError` while pruning `attr`'s values

  /** The state of the target between the prune steps, or the name whose prune raised. */
  datatype Pruning = Pruned(target: Hash<Value>, ops: seq<Op>) | PruneCrash(attr: string)
}

=== FILE: plan_examples.dfy ===
/**
 The planner on small concrete resources, pinning down what the provider does
 in cases where a reader might expect something else.
 */
module PlanExamples {
  import opened Wrappers
  import opened RubyString
  import opened RubyArray
  import opened RubyHash
  import opened CaseInsensitiveHash
  import opened EntryModel
  import opened Planner
  import opened PlanProperties

  const Dn: string := "cn=jdoe,dc=org"

  lemma DescIsLower()
    ensures Lower("desc") == "desc"
  {
    assert IsLower("desc");
  }

  /** A one-pair hash with a lower-case key is already folded. */
  lemma SingleFolded(v: Value)
    ensures FoldKeys([("desc", v)]) == [("desc", v)]
    ensures FromHash([("desc", v)]) == [("desc", v)]
  {
    DescIsLower();
    var h := [("desc", v)];
    assert Keys(h) == ["desc"];
    assert Remove(h, "desc") == [];
    assert FoldKeys(h) == FoldFrom(Store([], "desc", v), []);
    assert FromHash(h) == Store(FromHash([]), "desc", v);
  }

  lemma DescNotProtected()
    ensures !Protected("desc", Dn)
  {
    assert !MatchesDn("sc");
    assert !MatchesDn("esc");
    assert Dn[0] == 'c';
  }

  // A value-level prune of a value the resource also desires. The values are
  // any three distinct strings.

  /** `a & b` in the value-prune example: the shared value `y`. */
  lemma ExampleShared(x: string, y: string, z: string)
    requires x != y && y != z && x != z
    ensures Inter([x, y], [y, z]) == [y]
  {
    assert [x, y][..1] == [x];
    var none: seq<string> := [];
    assert [x][..0] == none;
    assert Inter([x], [y, z]) == Inter(none, [y, z]) == [];
  }

  /** What is left of the prune list once the desired value is dropped: `z`. */
  lemma ExampleLeftOver(y: string, z: string)
    requires y != z
    ensures Minus([y, z], [y]) == [z]
  {
    assert [y, z][1..] == [z];
    assert [z][1..] == [];
  }

  lemma ExampleLeftOverAbsent(x: string, y: string, z: string)
    requires y != z && x != z
    ensures Inter([z], [x, y]) == []
  {
    assert [z][..0] == [];
  }

  /** No delete in the value-prune example: `z` is not in the entry. */
  lemma ExampleNoDelete(x: string, y: string, z: string)
    requires x != y && y != z && x != z
    ensures ValueDeletes("desc", [y, z], [x, y], [("desc", [x, y])]) == []
  {
    ExampleShared(x, y, z);
    ExampleLeftOver(y, z);
    ExampleLeftOverAbsent(x, y, z);
    var cur := [("desc", [x, y])];
    assert Keys(cur) == ["desc"];
    assert Get(cur, "desc") == [x, y];
  }

  /** The desired list less the shared value: `x`. */
  lemma ExampleKept(x: string, y: string)
    requires x != y
    ensures Minus([x, y], [y]) == [x]
  {
    assert [x, y][1..] == [y];
    assert [y][1..] == [];
  }

  lemma ExampleStoreKept(x: string, y: string)
    ensures Lookup([("desc", List([x, y]))], "desc") == Some(List([x, y]))
    ensures Store([("desc", List([x, y]))], "desc", List([x])) == [("desc", List([x]))]
  {
  }

  /** One value-level prune step on a name the target has, with its `let`s written out. */
  lemma PruneValueFound(target: Hash<Value>, attr: string, values: Value, cur: Hash<seq<string>>, tv: Value)
    requires Lookup(target, Lower(attr)) == Some(tv)
    ensures var kept := Minus(AsList(tv), Inter(AsList(tv), AsList(values)));
      var stored := Store(target, Lower(attr), List(kept));
      PruneValue(target, attr, values, cur)
        == Pruned(if |kept| == 0 then Remove(stored, Lower(attr)) else stored, ValueDeletes(attr, AsList(values), AsList(tv), cur))
  {
  }

  lemma ExamplePruneValue(x: string, y: string, z: string)
    requires x != y && y != z && x != z
    ensures PruneValue([("desc", List([x, y]))], "desc", List([y, z]), [("desc", [x, y])])
         == Pruned([("desc", List([x]))], [])
  {
    DescIsLower();
    ExampleShared(x, y, z);
    ExampleNoDelete(x, y, z);
    ExampleKept(x, y);
    ExampleStoreKept(x, y);
    PruneValueFound([("desc", List([x, y]))], "desc", List([y, z]), [("desc", [x, y])], List([x, y]));
  }

  /** The value-level prune step of the example below: the target keeps `[x]`, no delete. */
  lemma ExamplePruneStep(x: string, y: string, z: string)
    requires x != y && y != z && x != z
    ensures PruneValues([("desc", List([x, y]))], [("desc", List([y, z]))], [("desc", [x, y])])
         == Pruned([("desc", List([x]))], [])
  {
    var pairs := [("desc", List([y, z]))];
    ExamplePruneValue(x, y, z);
    assert pairs[1..] == [];
    var none: Hash<Value> := [];
    assert PruneValues([("desc", List([x]))], none, [("desc", [x, y])]) == Pruned([("desc", List([x]))], []);
  }

  lemma ExampleNoAppend(x: string, y: string)
    ensures AppendOps("desc", [], [("desc", [x, y])]) == []
  {
    var none: Hash<Value> := [];
    assert Lookup(none, "desc") == None;
  }

  lemma ExampleNoReplace(x: string, y: string)
    ensures ReplaceOps("desc", [("desc", List([x, y]))], [("desc", [x, y])]) == []
  {
    var cur := [("desc", [x, y])];
    var d := [("desc", List([x, y]))];
    assert Keys(cur) == ["desc"];
    assert Lookup(d, "desc") == Some(List([x, y]));
    assert Get(cur, "desc") == [x, y];
  }

  lemma ExampleUpdateFor(x: string, y: string)
    ensures UpdateFor("desc", Dn, [], [("desc", List([x, y]))], [("desc", [x, y])]) == []
  {
    DescNotProtected();
    ExampleNoAppend(x, y);
    ExampleNoReplace(x, y);
  }

  /** The update step of the example below: the desired list is the entry's, so nothing. */
  lemma ExampleUpdate(x: string, y: string)
    ensures UpdateOps(["desc"], Dn, [], [("desc", List([x, y]))], [("desc", [x, y])]) == []
  {
    var cur := [("desc", [x, y])];
    var d := [("desc", List([x, y]))];
    var none: Hash<Value> := [];
    ExampleUpdateFor(x, y);
    assert ["desc"][1..] == [];
    assert UpdateOps([], Dn, none, d, cur) == [];
  }

  /** The attributes of the example below: the desired ones, unchanged. */
  lemma ExampleValueAttributes(x: string, y: string)
    ensures NewAttributes([("desc", List([x, y]))], [], [("desc", [x, y])]) == [("desc", List([x, y]))]
    ensures AllAttributes([("desc", List([x, y]))], [], [], [("desc", [x, y])]) == [("desc", List([x, y]))]
  {
    var d := [("desc", List([x, y]))];
    var cur := [("desc", [x, y])];
    SingleFolded(List([x, y]));
    DescIsLower();
    assert Keys(cur) == ["desc"];
    assert LowerAll(Keys(cur)) == ["desc"];
    var none: Hash<Value> := [];
    assert FromHash(none) == [];
    var nothing: seq<string> := [];
    assert Minus(nothing, ["desc"]) == [];
    assert NewAttributes(d, [], cur) == d;
  }

  /** The batch names of the example below: `desc` is in both lists, so it is updated and not added. */
  lemma ExampleValueNames(x: string, y: string)
    ensures Keys([("desc", List([x, y]))]) == ["desc"]
    ensures Keys([("desc", [x, y])]) == ["desc"]
    ensures Inter(["desc"], ["desc"]) == ["desc"]
    ensures AddOps(["desc"], [("desc", List([x]))], ["desc"]) == []
  {
    assert Minus(["desc"], ["desc"]) == [];
  }

  /**
   A value-level prune of `y` and `z` from `desc`, desired as `[x, y]` on an
   entry holding `[x, y]`: the shared value `y` is dropped from the prune
   list before it is compared with the entry, so no delete is planned, and
   the replace test reads the unpruned desired list, so no replace is planned
   either.
   */
  lemma ValuePruneOfDesiredValuePlansNothing(x: string, y: string, z: string)
    requires x != y && y != z && x != z
    ensures WellFormedInput([("desc", List([x, y]))], ByValue([("desc", List([y, z]))]), Some(CurrentEntry(Dn, [("desc", [x, y])])))
    ensures Plan(Dn, [("desc", List([x, y]))], [], [], ByValue([("desc", List([y, z]))]),
                 Some(CurrentEntry(Dn, [("desc", [x, y])]))) == Modify([], [], [])
  {
    var d := [("desc", List([x, y]))];
    var cur := [("desc", [x, y])];
    var prune := ByValue([("desc", List([y, z]))]);
    var none: Hash<Value> := [];
    ExampleValueAttributes(x, y);
    ExampleValueNames(x, y);
    ExamplePruneStep(x, y, z);
    ExampleUpdate(x, y);
    assert FromHash(none) == [];
    DescIsLower();
    assert UniqueKeys(d) && UniqueKeys(prune.values);
    PlanShape(Dn, d, none, none, prune, CurrentEntry(Dn, cur));
  }

  /** The attributes of the example below: the desired `desc` alone. */
  lemma ExampleWholeAttributes()
    ensures NewAttributes([("desc", Str("d"))], [], [("cn", ["x"])]) == [("desc", Str("d"))]
    ensures AllAttributes([("desc", Str("d"))], [], [], [("cn", ["x"])]) == [("desc", Str("d"))]
  {
    var none: Hash<Value> := [];
    SingleFolded(Str("d"));
    assert IsLower("cn");
    assert LowerAll(Keys([("cn", ["x"])])) == ["cn"];
    assert FromHash(none) == [];
    assert Minus([], ["cn"]) == [];
  }

  /** The prune of the example below: `desc` leaves the target, and the entry has nothing to delete. */
  lemma ExampleWholePrune()
    ensures PruneWhole([("desc", Str("d"))], ["desc"], [("cn", ["x"])]) == Pruned([], [])
  {
    DescIsLower();
    var none: Hash<Value> := [];
    assert Remove([("desc", Str("d"))], "desc") == none;
    assert PruneWhole(none, [], [("cn", ["x"])]) == Pruned(none, []);
    assert Keys([("cn", ["x"])]) == ["cn"];
  }

  /** The batches of the example below: `desc` is added with `[nil]`, and nothing is updated. */
  lemma ExampleWholeBatches()
    ensures LowerAll(Keys([("desc", Str("d"))])) == ["desc"]
    ensures LowerAll(Keys([("cn", ["x"])])) == ["cn"]
    ensures AddOps(["desc"], [], ["cn"]) == [Op(Add, "desc", Wrapped(None))]
    ensures Inter(["desc"], ["cn"]) == []
  {
    DescIsLower();
    assert IsLower("cn");
    var none: Hash<Value> := [];
    assert Lookup(none, "desc") == None;
    assert Minus(["desc"], ["cn"]) == ["desc"];
    var nothing: seq<string> := [];
    assert Inter(nothing, ["cn"]) == [];
  }

  /**
   A whole-attribute prune of a desired name the entry lacks: the add list is
   taken before the prune, so the plan still adds the name, with `[nil]`.
   */
  lemma WholePruneOfMissingNameAddsNil()
    ensures Plan(Dn, [("desc", Str("d"))], [], [], Whole(["desc"]), Some(CurrentEntry(Dn, [("cn", ["x"])])))
         == Modify([Op(Add, "desc", Wrapped(None))], [], [])
  {
    var none: Hash<Value> := [];
    var d := [("desc", Str("d"))];
    var cur := [("cn", ["x"])];
    ExampleWholeAttributes();
    ExampleWholePrune();
    ExampleWholeBatches();
    assert FromHash(none) == [];
    assert UpdateOps([], Dn, none, d, cur) == [];
    assert PlanModify(Dn, d, none, none, Whole(["desc"]), cur) == Modify([Op(Add, "desc", Wrapped(None))], [], []);
  }

  const Seed: Hash<Value> := [("cn", List(["y"])), ("sn", List(["z"]))]

  /** The seed hash of the example below is already folded. */
  lemma ExampleSeedFolded()
    ensures FromHash(Seed) == Seed
  {
    assert IsLower("cn") && IsLower("sn");
    assert Seed[..1] == [("cn", List(["y"]))];
    assert Seed[..1][..0] == [];
    var one := FromHash(Seed[..1]);
    assert one == Store([], "cn", List(["y"])) == [("cn", List(["y"]))];
    assert Keys(one) == ["cn"];
    StoreAbsent(one, "sn", List(["z"]));
  }

  /** Of the seeded names, only `sn` is one the entry lacks. */
  lemma ExampleSeedNames()
    ensures LowerAll(Keys(Seed)) == ["cn", "sn"]
    ensures LowerAll(Keys([("cn", ["x"])])) == ["cn"]
    ensures Minus(["cn", "sn"], ["cn"]) == ["sn"]
  {
    assert IsLower("cn") && IsLower("sn");
    assert Keys(Seed) == ["cn", "sn"];
    assert Minus(["sn"], ["cn"]) == ["sn"];
  }

  lemma ExampleSeedFill()
    ensures SeedFill([], Seed, ["sn"]) == [("sn", List(["z"]))]
  {
    var none: Hash<Value> := [];
    assert Keys(Seed) == ["cn", "sn"];
    assert Get(Seed, "sn") == List(["z"]);
    assert Store(none, "sn", List(["z"])) == [("sn", List(["z"]))];
    assert SeedFill(none, Seed, ["sn"]) == SeedFill([("sn", List(["z"]))], Seed, []);
  }

  /** The attributes the seed example below works on: the seed for `sn` alone. */
  lemma ExampleSeedAttributes()
    ensures NewAttributes([], Seed, [("cn", ["x"])]) == [("sn", List(["z"]))]
    ensures AllAttributes([], Seed, [], [("cn", ["x"])]) == [("sn", List(["z"]))]
  {
    var none: Hash<Value> := [];
    ExampleSeedFolded();
    ExampleSeedNames();
    ExampleSeedFill();
    assert FoldKeys(none) == [] && FromHash(none) == [];
    assert NewAttributes(none, Seed, [("cn", ["x"])]) == [("sn", List(["z"]))];
  }

  /** The batches of the seed example below: one add of `sn`, nothing for `cn`. */
  lemma ExampleSeedBatches()
    ensures LowerAll(Keys([("sn", List(["z"]))])) == ["sn"]
    ensures AddOps(["sn"], [("sn", List(["z"]))], ["cn"]) == [Op(Add, "sn", Wrapped(Some(List(["z"]))))]
    ensures Inter(["sn"], ["cn"]) == []
  {
    assert IsLower("sn");
    assert Minus(["sn"], ["cn"]) == ["sn"];
    assert Lookup([("sn", List(["z"]))], "sn") == Some(List(["z"]));
    var none: seq<string> := [];
    assert Inter(none, ["cn"]) == [];
  }

  /**
   Seeds on an entry that has `cn` but lacks `sn`: only `sn` is added, and its
   add wraps the seeded list once more; the seed for `cn` plans nothing.
   */
  lemma SeedFillsMissingName()
    ensures Plan(Dn, [], Seed, [], Whole([]), Some(CurrentEntry(Dn, [("cn", ["x"])])))
         == Modify([Op(Add, "sn", Wrapped(Some(List(["z"]))))], [], [])
  {
    var none: Hash<Value> := [];
    var cur := [("cn", ["x"])];
    var all := [("sn", List(["z"]))];
    ExampleSeedAttributes();
    ExampleSeedBatches();
    ExampleSeedNames();
    assert FromHash(none) == [];
    assert PruneWhole(all, [], cur) == Pruned(all, []);
    assert UpdateOps([], Dn, none, all, cur) == [];
    assert PlanModify(Dn, none, Seed, none, Whole([]), cur) == Modify([Op(Add, "sn", Wrapped(Some(List(["z"]))))], [], []);
  }
  // A name both desired and appended, with different values: the two
  // updates undo each other. The values are any two distinct strings.

  /** With nothing seeded, `new_attributes` on an entry holding only `desc` is the desired `desc` alone. */
  lemma DescOnlyAttributes(v: Value, e: seq<string>)
    ensures NewAttributes([("desc", v)], [], [("desc", e)]) == [("desc", v)]
  {
    var cur := [("desc", e)];
    SingleFolded(v);
    DescIsLower();
    assert Keys(cur) == ["desc"];
    assert LowerAll(Keys(cur)) == ["desc"];
    var none: Hash<Value> := [];
    assert FromHash(none) == [];
    var nothing: seq<string> := [];
    assert Minus(nothing, ["desc"]) == [];
  }

  /** The attributes of the examples below: the appended `[y]` merged over the desired `[x]`. */
  lemma ExampleCycleAttributes(x: string, y: string, e: seq<string>)
    ensures AllAttributes([("desc", List([x]))], [], [("desc", List([y]))], [("desc", e)]) == [("desc", List([y]))]
  {
    var d := [("desc", List([x]))];
    var none: Hash<Value> := [];
    DescOnlyAttributes(List([x]), e);
    SingleFolded(List([y]));
    assert Merge(d, [("desc", List([y]))]) == Merge(Store(d, "desc", List([y])), none);
  }

  lemma ExampleCycleAppend(x: string, y: string)
    requires x != y
    ensures AppendOps("desc", [("desc", List([y]))], [("desc", [x])]) == [Op(Add, "desc", Vals([y]))]
    ensures AppendOps("desc", [("desc", List([y]))], [("desc", [x, y])]) == []
  {
    assert Minus([y], [x]) == [y] by { assert [y][1..] == []; }
    assert Minus([y], [x, y]) == [] by { assert [y][1..] == []; }
  }

  lemma ExampleCycleKeep(x: string)
    ensures ReplaceOps("desc", [("desc", List([x]))], [("desc", [x])]) == []
  {
  }

  lemma ExampleCycleReplace(x: string, y: string)
    ensures ReplaceOps("desc", [("desc", List([x]))], [("desc", [x, y])]) == [Op(Replace, "desc", Vals([x]))]
  {
    var d := [("desc", List([x]))];
    var cur := [("desc", [x, y])];
    assert Keys(d) == ["desc"] && Get(d, "desc") == List([x]);
    assert Get(cur, "desc") == [x, y];
    assert multiset([x]) != multiset([x, y]) by { assert |multiset([x])| == 1 && |multiset([x, y])| == 2; }
    ReplaceOpsSpec("desc", d, cur);
  }

  /** On an entry holding `[x]`: the append of `y`, and no replace. */
  lemma ExampleCycleFirst(x: string, y: string)
    requires x != y
    ensures UpdateFor("desc", Dn, [("desc", List([y]))], [("desc", List([x]))], [("desc", [x])]) == [Op(Add, "desc", Vals([y]))]
  {
    DescNotProtected();
    ExampleCycleAppend(x, y);
    ExampleCycleKeep(x);
  }

  /** On an entry holding `[x, y]`: nothing to append, and a replace with `[x]`. */
  lemma ExampleCycleSecond(x: string, y: string)
    requires x != y
    ensures UpdateFor("desc", Dn, [("desc", List([y]))], [("desc", List([x]))], [("desc", [x, y])]) == [Op(Replace, "desc", Vals([x]))]
  {
    DescNotProtected();
    ExampleCycleAppend(x, y);
    ExampleCycleReplace(x, y);
  }

  /** The batch names of the examples below: `desc` is updated, not added, and nothing is pruned. */
  lemma ExampleCycleNames(y: string, e: seq<string>)
    ensures Keys([("desc", List([y]))]) == ["desc"]
    ensures Keys([("desc", e)]) == ["desc"]
    ensures Inter(["desc"], ["desc"]) == ["desc"]
    ensures AddOps(["desc"], [("desc", List([y]))], ["desc"]) == []
    ensures PruneWhole([("desc", List([y]))], [], [("desc", e)]) == Pruned([("desc", List([y]))], [])
  {
    assert Minus(["desc"], ["desc"]) == [];
  }

  /** The update batch of the examples below: the update of `desc` alone. */
  lemma ExampleCycleUpdate(x: string, y: string, e: seq<string>)
    ensures UpdateOps(["desc"], Dn, [("desc", List([y]))], [("desc", List([x]))], [("desc", e)])
         == UpdateFor("desc", Dn, [("desc", List([y]))], [("desc", List([x]))], [("desc", e)])
  {
    var none: seq<string> := [];
    assert ["desc"][1..] == none;
    assert UpdateOps(none, Dn, [("desc", List([y]))], [("desc", List([x]))], [("desc", e)]) == [];
  }

  lemma ExampleCycleInput(x: string, e: seq<string>)
    ensures WellFormedInput([("desc", List([x]))], Whole([]), Some(CurrentEntry(Dn, [("desc", e)])))
  {
    DescIsLower();
    assert Keys([("desc", e)]) == ["desc"];
  }

  /** The plan of the examples below is the update of `desc` alone. */
  lemma ExampleCyclePlan(x: string, y: string, e: seq<string>)
    ensures WellFormedInput([("desc", List([x]))], Whole([]), Some(CurrentEntry(Dn, [("desc", e)])))
    ensures Plan(Dn, [("desc", List([x]))], [], [("desc", List([y]))], Whole([]), Some(CurrentEntry(Dn, [("desc", e)])))
         == Modify([], UpdateFor("desc", Dn, [("desc", List([y]))], [("desc", List([x]))], [("desc", e)]), [])
  {
    var d := [("desc", List([x]))];
    var none: Hash<Value> := [];
    ExampleCycleInput(x, e);
    DescOnlyAttributes(List([x]), e);
    ExampleCycleAttributes(x, y, e);
    SingleFolded(List([y]));
    ExampleCycleNames(y, e);
    ExampleCycleUpdate(x, y, e);
    PlanShape(Dn, d, none, [("desc", List([y]))], Whole([]), CurrentEntry(Dn, [("desc", e)]));
  }

  /**
   `desc` desired as `[x]` and appended with `[y]`, on an entry holding `[x]`:
   the plan adds `y`. On the entry that results, holding `[x, y]`, the plan
   replaces the list with `[x]` again, because the replace test reads the
   desired list without the append. The entry alternates between the two
   states and never converges.
   */
  lemma AppendAndReplaceAlternate(x: string, y: string)
    requires x != y
    ensures WellFormedInput([("desc", List([x]))], Whole([]), Some(CurrentEntry(Dn, [("desc", [x])])))
    ensures WellFormedInput([("desc", List([x]))], Whole([]), Some(CurrentEntry(Dn, [("desc", [x, y])])))
    ensures Plan(Dn, [("desc", List([x]))], [], [("desc", List([y]))], Whole([]), Some(CurrentEntry(Dn, [("desc", [x])])))
         == Modify([], [Op(Add, "desc", Vals([y]))], [])
    ensures Plan(Dn, [("desc", List([x]))], [], [("desc", List([y]))], Whole([]), Some(CurrentEntry(Dn, [("desc", [x, y])])))
         == Modify([], [Op(Replace, "desc", Vals([x]))], [])
  {
    ExampleCyclePlan(x, y, [x]);
    ExampleCyclePlan(x, y, [x, y]);
    ExampleCycleFirst(x, y);
    ExampleCycleSecond(x, y);
  }
}

=== FILE: plan_properties.dfy ===
/**
 Properties of the planner that relate several of its stages, or relate it to
 an independent statement of what the provider promises.
 */
module PlanProperties {
  import opened Wrappers
  import opened RubyString
  import opened RubyArray
  import opened RubyHash
  import opened CaseInsensitiveHash
  import opened EntryModel
  import opened Planner
  import opened RubySort

  // ---------------------------------------------------------------------------
  // Case of the desired keys

  /** Each pair with its key lower-cased, order kept. */
  function LowerPairs(h: Hash<Value>): (r: Hash<Value>)
    ensures |r| == |h|
    ensures forall i :: 0 <= i < |h| ==> r[i] == (Lower(h[i].0), h[i].1)
  {
    seq(|h|, i requires 0 <= i < |h| => (Lower(h[i].0), h[i].1))
  }

  /** No two keys of `h` lower-case to the same name. */
  predicate PairsApart(h: Hash<Value>) {
    forall i, j :: 0 <= i < j < |h| ==> Lower(h[i].0) != Lower(h[j].0)
  }

  /** `PairsApart` is `NoCaseCollision` of the keys. */
  lemma PairsApartKeys(h: Hash<Value>)
    ensures PairsApart(h) <==> NoCaseCollision(Keys(h))
  {
  }

  /** The first key of `rest`, folded, differs from each later raw key. */
  lemma FoldedKeyFreshAt(rest: Hash<Value>, done: Hash<Value>, i: int)
    requires PairsApart(done + rest)
    requires 0 <= i < |rest| - 1
    ensures rest[1..][i].0 != Lower(rest[0].0)
  {
    assert (done + rest)[|done|] == rest[0] && (done + rest)[|done| + 1 + i] == rest[1..][i];
    LowerApart(rest[1..][i].0, rest[0].0);
  }

  /** The first key of `rest`, folded, differs from each earlier key, folded. */
  lemma FoldedKeyFreshBeforeAt(rest: Hash<Value>, done: Hash<Value>, i: int)
    requires PairsApart(done + rest)
    requires |rest| > 0 && 0 <= i < |done|
    ensures Lower(done[i].0) != Lower(rest[0].0)
  {
    assert (done + rest)[|done|] == rest[0] && (done + rest)[i] == done[i];
  }

  /** A folded key does not collide with the later raw keys. */
  lemma FoldedKeyFreshAfter(rest: Hash<Value>, done: Hash<Value>)
    requires |rest| > 0
    requires PairsApart(done + rest)
    ensures Lower(rest[0].0) !in Keys(rest[1..])
  {
    forall i | 0 <= i < |rest| - 1 ensures Keys(rest[1..])[i] != Lower(rest[0].0) {
      FoldedKeyFreshAt(rest, done, i);
    }
  }

  /** A folded key does not collide with the earlier folded keys. */
  lemma FoldedKeyFreshBefore(rest: Hash<Value>, done: Hash<Value>)
    requires |rest| > 0
    requires PairsApart(done + rest)
    ensures Lower(rest[0].0) !in Keys(LowerPairs(done))
  {
    forall i | 0 <= i < |done| ensures Keys(LowerPairs(done))[i] != Lower(rest[0].0) {
      FoldedKeyFreshBeforeAt(rest, done, i);
    }
  }

  /** A folded key does not collide with the later raw keys or the earlier folded ones. */
  lemma FoldedKeyFresh(rest: Hash<Value>, done: Hash<Value>)
    requires |rest| > 0
    requires PairsApart(done + rest)
    ensures Lower(rest[0].0) !in Keys(rest[1..] + LowerPairs(done))
  {
    FoldedKeyFreshAfter(rest, done);
    FoldedKeyFreshBefore(rest, done);
    KeysConcat(rest[1..], LowerPairs(done));
  }

  /** Deleting the first key of a hash without repeated keys leaves the rest. */
  lemma RemoveFirst(h: Hash<Value>)
    requires |h| > 0 && UniqueKeys(h)
    ensures Remove(h, h[0].0) == h[1..]
  {
    RemoveAbsent(h[1..], h[0].0);
  }

  lemma LowerPairsSnoc(done: Hash<Value>, p: (string, Value))
    ensures LowerPairs(done + [p]) == LowerPairs(done) + [(Lower(p.0), p.1)]
  {
  }

  /** Dropping the first pair of `rest + tail`, for a non-empty `rest`. */
  lemma DropFirst(rest: Hash<Value>, tail: Hash<Value>)
    requires |rest| > 0
    ensures (rest + tail)[0] == rest[0] && (rest + tail)[1..] == rest[1..] + tail
  {
  }

  /** Appending a pair after `rest + tail`. */
  lemma AppendAfter(rest: Hash<Value>, tail: Hash<Value>, p: (string, Value))
    ensures (rest + tail) + [p] == rest + (tail + [p])
  {
  }

  /** One turn of the key-folding loop moves the first raw pair to the end, lower-cased. */
  lemma FoldTurn(rest: Hash<Value>, done: Hash<Value>)
    requires |rest| > 0
    requires PairsApart(done + rest)
    requires UniqueKeys(rest + LowerPairs(done))
    ensures var h := rest + LowerPairs(done);
      rest[0].0 in Keys(h) &&
      Store(Remove(h, rest[0].0), Lower(rest[0].0), Get(h, rest[0].0)) == rest[1..] + LowerPairs(done + [rest[0]])
  {
    var h := rest + LowerPairs(done);
    var tail := rest[1..] + LowerPairs(done);
    DropFirst(rest, LowerPairs(done));
    assert Keys(h)[0] == rest[0].0;
    RemoveFirst(h);
    FoldedKeyFresh(rest, done);
    StoreAbsent(tail, Lower(rest[0].0), rest[0].1);
    LowerPairsSnoc(done, rest[0]);
    AppendAfter(rest[1..], LowerPairs(done), (Lower(rest[0].0), rest[0].1));
  }

  /** The precondition of the key-folding loop on `rest` followed by the folded `done`. */
  predicate ShiftReady(rest: Hash<Value>, done: Hash<Value>) {
    && PairsApart(done + rest)
    && UniqueKeys(rest + LowerPairs(done))
    && Distinct(Keys(rest))
    && (forall k :: k in Keys(rest) ==> k in Keys(rest + LowerPairs(done)))
  }

  /** The keys of `rest` are keys of `rest + tail`. */
  lemma KeysOfPrefix(rest: Hash<Value>, tail: Hash<Value>)
    ensures forall k :: k in Keys(rest) ==> k in Keys(rest + tail)
  {
    KeysConcat(rest, tail);
  }

  /** One turn of the loop keeps its precondition, with the first pair moved to `done`. */
  lemma ShiftReadyStep(rest: Hash<Value>, done: Hash<Value>)
    requires |rest| > 0 && ShiftReady(rest, done)
    ensures ShiftReady(rest[1..], done + [rest[0]])
  {
    MoveFirst(done, rest);
    ShiftUnique(rest, done);
    ShiftDistinct(rest);
    KeysOfPrefix(rest[1..], LowerPairs(done + [rest[0]]));
  }

  /** The hash of the next turn has no repeated key. */
  lemma ShiftUnique(rest: Hash<Value>, done: Hash<Value>)
    requires |rest| > 0
    requires PairsApart(done + rest)
    requires UniqueKeys(rest + LowerPairs(done))
    ensures UniqueKeys(rest[1..] + LowerPairs(done + [rest[0]]))
  {
    var h := rest + LowerPairs(done);
    FoldTurn(rest, done);
    assert UniqueKeys(Remove(h, rest[0].0));
  }

  /** The keys still to fold stay distinct. */
  lemma ShiftDistinct(rest: Hash<Value>)
    requires |rest| > 0 && Distinct(Keys(rest))
    ensures Distinct(Keys(rest[1..]))
  {
    KeysTail(rest);
    DistinctTail(Keys(rest));
  }

  lemma KeysTail(h: Hash<Value>)
    requires |h| > 0
    ensures Keys(h)[1..] == Keys(h[1..])
  {
  }


  /** One turn of the loop, stated on the shifted hashes. */
  lemma FoldFromTurn(rest: Hash<Value>, done: Hash<Value>)
    requires |rest| > 0 && ShiftReady(rest, done)
    ensures ShiftReady(rest[1..], done + [rest[0]])
    ensures FoldFrom(rest + LowerPairs(done), Keys(rest)) == FoldFrom(rest[1..] + LowerPairs(done + [rest[0]]), Keys(rest[1..]))
  {
    FoldTurn(rest, done);
    ShiftReadyStep(rest, done);
    assert Keys(rest)[0] == rest[0].0 && Keys(rest)[1..] == Keys(rest[1..]);
  }

  /** Moving the first pair of `rest` to the end of `done` keeps the concatenation. */
  lemma MoveFirst(done: Hash<Value>, rest: Hash<Value>)
    requires |rest| > 0
    ensures (done + [rest[0]]) + rest[1..] == done + rest
  {
  }

  /**
   The key-folding loop, generalised: with `done` already moved to the end
   under lower-cased keys, folding the keys of `rest` moves them after it.
   */
  lemma {:induction false} FoldFromShift(rest: Hash<Value>, done: Hash<Value>)
    requires ShiftReady(rest, done)
    ensures FoldFrom(rest + LowerPairs(done), Keys(rest)) == LowerPairs(done + rest)
    decreases |rest|
  {
    if |rest| == 0 {
      assert rest + LowerPairs(done) == LowerPairs(done);
      assert done + rest == done;
    } else {
      FoldFromTurn(rest, done);
      MoveFirst(done, rest);
      FoldFromShift(rest[1..], done + [rest[0]]);
    }
  }

  /**
   Lines 40–42 on a hash whose keys do not collide once lower-cased: every
   pair keeps its value under its lower-cased key, in the original order.
   */
  lemma FoldKeysCollisionFree(attrs: Hash<Value>)
    requires UniqueKeys(attrs)
    requires NoCaseCollision(Keys(attrs))
    ensures FoldKeys(attrs) == LowerPairs(attrs)
  {
    PairsApartKeys(attrs);
    UniqueKeysDistinct(attrs);
    assert attrs + LowerPairs([]) == attrs;
    assert [] + attrs == attrs;
    KeysOfPrefix(attrs, []);
    FoldFromShift(attrs, []);
  }

  /**
   The plan does not depend on the case in which the desired attribute names
   are written: two desired hashes, each with no two names equal up to case,
   that agree once lower-cased plan alike.
   */
  lemma PlanIgnoresDesiredCase(dn: string, d1: Hash<Value>, d2: Hash<Value>, seed: Hash<Value>, append: Hash<Value>,
                               prune: PruneSpec, current: Option<CurrentEntry>)
    requires WellFormedInput(d1, prune, current) && WellFormedInput(d2, prune, current)
    requires NoCaseCollision(Keys(d1)) && NoCaseCollision(Keys(d2))
    requires LowerPairs(d1) == LowerPairs(d2)
    ensures Plan(dn, d1, seed, append, prune, current) == Plan(dn, d2, seed, append, prune, current)
  {
    FoldKeysCollisionFree(d1);
    FoldKeysCollisionFree(d2);
    if current.Some? {
      var cur := current.value.attrs;
      assert NewAttributes(d1, seed, cur) == NewAttributes(d2, seed, cur);
      assert AllAttributes(d1, seed, append, cur) == AllAttributes(d2, seed, append, cur);
      PlanShape(dn, d1, seed, append, prune, current.value);
      PlanShape(dn, d2, seed, append, prune, current.value);
    }
  }

  // ---------------------------------------------------------------------------
  // Which names the plan touches

  /** The name, lower-cased, is a key of the desired, seed or append attributes. */
  predicate Mentioned(name: string, desired: Hash<Value>, seed: Hash<Value>, append: Hash<Value>) {
    name in LowerAll(Keys(desired)) || name in LowerAll(Keys(seed)) || name in LowerAll(Keys(append))
  }

  /**
   The name is one the plan works on for an entry holding `cur`: a desired or
   appended name, or a seed name the entry lacks.
   */
  predicate Planned(name: string, desired: Hash<Value>, seed: Hash<Value>, append: Hash<Value>, cur: Hash<seq<string>>) {
    name in LowerAll(Keys(desired)) || name in LowerAll(Keys(append)) || (name in LowerAll(Keys(seed)) && name !in Keys(cur))
  }

  /** The keys of the desired attributes once folded are their names lower-cased. */
  lemma DesiredKeys(desired: Hash<Value>)
    requires UniqueKeys(desired)
    ensures forall j :: j in Keys(FromHash(FoldKeys(desired))) <==> j in LowerAll(Keys(desired))
  {
    FoldedNames(FoldKeys(desired));
  }

  /**
   The names of `all_attributes` (lines 61–70): every desired and appended
   name, and a seed name only when the entry lacks it.
   */
  lemma AllAttributesKeys(desired: Hash<Value>, seed: Hash<Value>, append: Hash<Value>, cur: Hash<seq<string>>)
    requires UniqueKeys(desired)
    requires forall k :: k in Keys(cur) ==> IsLower(k)
    ensures forall j :: j in Keys(AllAttributes(desired, seed, append, cur)) <==> Planned(j, desired, seed, append, cur)
  {
    DesiredKeys(desired);
    var filled := NewAttributes(desired, seed, cur);
    assert forall j :: j in Keys(filled) <==> Lookup(filled, j).Some?;
  }

  /**
   With no entry in the directory the plan adds the whole entry (lines
   53–58): every mentioned name, lower-cased, and no other, with the append
   value winning over the seed value winning over the desired value.
   */
  lemma PlanCreateSpec(dn: string, desired: Hash<Value>, seed: Hash<Value>, append: Hash<Value>, prune: PruneSpec)
    requires WellFormedInput(desired, prune, None)
    ensures var r := Plan(dn, desired, seed, append, prune, None);
      && r.Create?
      && Folded(r.attrs)
      && (forall j :: j in Keys(r.attrs) <==> Mentioned(j, desired, seed, append))
      && ToMap(r.attrs) == ToMap(FromHash(FoldKeys(desired))) + ToMap(FromHash(seed)) + ToMap(FromHash(append))
  {
    var d := FromHash(FoldKeys(desired));
    var ds := Merge(d, FromHash(seed));
    var r := Merge(ds, FromHash(append));
    DesiredKeys(desired);
    MergeIsMapUnion(d, FromHash(seed));
    MergeIsMapUnion(ds, FromHash(append));
    assert forall k :: k in Keys(r) ==> k in Keys(d) || k in Keys(FromHash(seed)) || k in Keys(FromHash(append));
  }

  // ---------------------------------------------------------------------------
  // An entry that exists

  /**
   An update op in the terms of the resource: for a name the entry has, never
   an identity attribute; an `:add` of exactly the appended values the entry
   lacks, never empty; a `:replace` with the desired list, only when that list
   is non-empty and not the entry's list up to order.
   */
  predicate UpdateSound(op: Op, dn: string, d: Hash<Value>, a: Hash<Value>, cur: Hash<seq<string>>) {
    && op.name in Keys(cur) && !Protected(op.name, dn)
    && (op.kind == Add || op.kind == Replace)
    && (op.kind == Add ==>
          && op.name in Keys(a) && op.payload.Vals? && |op.payload.items| > 0
          && (forall v :: v in op.payload.items ==> v in AsList(Get(a, op.name)) && v !in Get(cur, op.name))
          && (forall v :: v in AsList(Get(a, op.name)) && v !in Get(cur, op.name) ==> v in op.payload.items))
    && (op.kind == Replace ==>
          && op.name in Keys(d) && op.payload == Vals(AsList(Get(d, op.name)))
          && |AsList(Get(d, op.name))| > 0 && multiset(AsList(Get(d, op.name))) != multiset(Get(cur, op.name)))
  }

  /** True iff the desired list for `n` is non-empty and not the entry's list up to order. */
  predicate DiffersFrom(d: Hash<Value>, cur: Hash<seq<string>>, n: string)
    requires n in Keys(d) && n in Keys(cur)
  {
    |AsList(Get(d, n))| > 0 && multiset(AsList(Get(d, n))) != multiset(Get(cur, n))
  }

  /** The update batch over `names`, stated against the desired hash `d` it reads through `newAttrs`. */
  lemma UpdateBatch(names: seq<string>, dn: string, a: Hash<Value>, newAttrs: Hash<Value>, d: Hash<Value>, cur: Hash<seq<string>>)
    requires forall n :: n in names ==> n in Keys(cur)
    requires forall n :: n in Keys(cur) ==> Lookup(newAttrs, n) == Lookup(d, n)
    ensures forall op :: op in UpdateOps(names, dn, a, newAttrs, cur) ==> op.name in names && UpdateSound(op, dn, d, a, cur)
    ensures forall n :: n in names && !Protected(n, dn) && n in Keys(a) && |AppendValues(a, cur, n)| > 0 ==>
      Op(Add, n, Vals(AppendValues(a, cur, n))) in UpdateOps(names, dn, a, newAttrs, cur)
    ensures forall n :: n in names && !Protected(n, dn) && n in Keys(d) && DiffersFrom(d, cur, n) ==>
      Op(Replace, n, Vals(AsList(Get(d, n)))) in UpdateOps(names, dn, a, newAttrs, cur)
  {
    UpdateOpsSpec(names, dn, a, newAttrs, cur);
    forall op | op in UpdateOps(names, dn, a, newAttrs, cur) ensures op.name in names && UpdateSound(op, dn, d, a, cur) {
      assert UpdateOpSound(op, names, dn, a, newAttrs, cur);
      if op.kind == Replace {
        assert Lookup(newAttrs, op.name) == Lookup(d, op.name);
      }
    }
    forall n | n in names && !Protected(n, dn) && n in Keys(d) && DiffersFrom(d, cur, n)
      ensures Op(Replace, n, Vals(AsList(Get(d, n)))) in UpdateOps(names, dn, a, newAttrs, cur)
    {
      assert Lookup(newAttrs, n) == Lookup(d, n);
      assert NeedsReplace(newAttrs, cur, n);
    }
  }

  /**
   The update batch (lines 112–139): sound updates of names the entry has
   that are desired or appended (an append-only name is never replaced),
   every `:add` and `:replace` such a name calls for, and per name at most
   one `:add` and at most one `:replace`, the `:add` first.
   */
  lemma PlanUpdateSpec(dn: string, desired: Hash<Value>, seed: Hash<Value>, append: Hash<Value>,
                       prune: PruneSpec, entry: CurrentEntry)
    requires WellFormedInput(desired, prune, Some(entry))
    ensures var r := Plan(dn, desired, seed, append, prune, Some(entry));
      var d := FromHash(FoldKeys(desired));
      var a := FromHash(append);
      r.Modify? ==>
        && (forall op :: op in r.updateOps ==>
              (op.name in LowerAll(Keys(desired)) || op.name in LowerAll(Keys(append))) && UpdateSound(op, dn, d, a, entry.attrs))
        && (forall n :: n in Keys(entry.attrs) && !Protected(n, dn) && n in Keys(a) && |AppendValues(a, entry.attrs, n)| > 0 ==>
              Op(Add, n, Vals(AppendValues(a, entry.attrs, n))) in r.updateOps)
        && (forall n :: n in Keys(entry.attrs) && !Protected(n, dn) && n in Keys(d) && DiffersFrom(d, entry.attrs, n) ==>
              Op(Replace, n, Vals(AsList(Get(d, n)))) in r.updateOps)
        && AddThenReplace(r.updateOps)
  {
    var cur := entry.attrs;
    var d := FromHash(FoldKeys(desired));
    var a := FromHash(append);
    var filled := NewAttributes(desired, seed, cur);
    var all := AllAttributes(desired, seed, append, cur);
    var names := Inter(Keys(all), Keys(cur));
    PlanShape(dn, desired, seed, append, prune, entry);
    UpdateNames(desired, seed, append, cur);
    UpdateBatch(names, dn, a, filled, d, cur);
    UpdateOpsOrdered(names, dn, a, filled, cur);
  }

  /** The names the update batch runs over: those the entry has that are desired, appended, or seeded. */
  lemma UpdateNames(desired: Hash<Value>, seed: Hash<Value>, append: Hash<Value>, cur: Hash<seq<string>>)
    requires UniqueKeys(desired)
    requires forall k :: k in Keys(cur) ==> IsLower(k)
    ensures var names := Inter(Keys(AllAttributes(desired, seed, append, cur)), Keys(cur));
      && (forall n :: n in names ==> n in Keys(cur) && (n in LowerAll(Keys(desired)) || n in LowerAll(Keys(append))))
      && (forall n :: n in Keys(cur) && (n in Keys(FromHash(append)) || n in Keys(FromHash(FoldKeys(desired)))) ==> n in names)
  {
    AllAttributesKeys(desired, seed, append, cur);
    DesiredKeys(desired);
  }

  /**
   The add batch (lines 104–109): an `:add` for each mentioned name the
   entry lacks, and none for any other name, wrapping the value the prune left for it in a
   list. Because the name list is taken before the prune, a whole-attribute
   prune of such a name still adds it, with `[nil]`; after a value-level
   prune it carries what the prune left, as `PrunedRead` reads it.
   */
  lemma PlanAddSpec(dn: string, desired: Hash<Value>, seed: Hash<Value>, append: Hash<Value>,
                    prune: PruneSpec, entry: CurrentEntry)
    requires WellFormedInput(desired, prune, Some(entry))
    ensures var r := Plan(dn, desired, seed, append, prune, Some(entry));
      r.Modify? ==>
        && (forall op :: op in r.addOps ==>
              op.kind == Add && op.payload.Wrapped? && op.name !in Keys(entry.attrs) && Mentioned(op.name, desired, seed, append))
        && (forall n :: Mentioned(n, desired, seed, append) && n !in Keys(entry.attrs) ==> exists op :: op in r.addOps && op.name == n)
    ensures var r := Plan(dn, desired, seed, append, prune, Some(entry));
      prune.Whole? ==>
        forall n :: Mentioned(n, desired, seed, append) && n !in Keys(entry.attrs) ==>
          var kept := if n in LowerAll(prune.names) then None else Lookup(AllAttributes(desired, seed, append, entry.attrs), n);
          Op(Add, n, Wrapped(kept)) in r.addOps
    ensures var r := Plan(dn, desired, seed, append, prune, Some(entry));
      var all := AllAttributes(desired, seed, append, entry.attrs);
      prune.ByValue? && NoCaseCollision(Keys(prune.values)) && (forall k :: k in Keys(prune.values) ==> Lower(k) in Keys(all)) ==>
        && r.Modify?
        && forall n :: Mentioned(n, desired, seed, append) && n !in Keys(entry.attrs) ==>
             Op(Add, n, Wrapped(PrunedRead(all, prune.values, n))) in r.addOps
  {
    var cur := entry.attrs;
    var all := AllAttributes(desired, seed, append, cur);
    PlanShape(dn, desired, seed, append, prune, entry);
    AllAttributesKeys(desired, seed, append, cur);
    assert forall n :: n !in Keys(cur) ==> (n in Keys(all) <==> Mentioned(n, desired, seed, append));
    var r := Plan(dn, desired, seed, append, prune, Some(entry));
    var pr := Prune(all, prune, cur);
    if prune.ByValue? && NoCaseCollision(Keys(prune.values)) && (forall k :: k in Keys(prune.values) ==> Lower(k) in Keys(all)) {
      PruneValuesExact(all, prune.values, cur);
    }
    if r.Modify? {
      forall n | Mentioned(n, desired, seed, append) && n !in Keys(cur) ensures exists op :: op in r.addOps && op.name == n {
        assert Op(Add, n, Wrapped(Lookup(pr.target, n))) in r.addOps;
      }
    }
  }

  /**
   The prune batch (lines 73–101). A whole-attribute prune never raises and
   deletes exactly the listed names the entry has, compared as written, each
   as often as it is listed. A value-level prune deletes only values the
   entry holds and the prune list names, for a prune name the entry has; it
   raises only for a prune name, and never when the prune names are distinct
   up to case and each names a planned attribute, in which case its deletes
   are the batch `BatchDeletes` read against the attributes before the prune.
   */
  lemma PlanPruneSpec(dn: string, desired: Hash<Value>, seed: Hash<Value>, append: Hash<Value>,
                      prune: PruneSpec, entry: CurrentEntry)
    requires WellFormedInput(desired, prune, Some(entry))
    ensures var r := Plan(dn, desired, seed, append, prune, Some(entry));
      prune.Whole? ==>
        && r.Modify?
        && (forall op :: op in r.pruneOps ==> op == Op(Delete, op.name, Nil) && op.name in prune.names && op.name in Keys(entry.attrs))
        && (forall n :: n in prune.names && n in Keys(entry.attrs) ==> Op(Delete, n, Nil) in r.pruneOps)
        && (forall n :: multiset(OpNames(r.pruneOps))[n] == if n in Keys(entry.attrs) then multiset(prune.names)[n] else 0)
    ensures var r := Plan(dn, desired, seed, append, prune, Some(entry));
      prune.ByValue? ==>
        && (r.Modify? ==> forall op :: op in r.pruneOps ==> PruneOpSound(op, prune.values, entry.attrs))
        && (r.Crash? ==> r.attr in Keys(prune.values))
    ensures var r := Plan(dn, desired, seed, append, prune, Some(entry));
      prune.ByValue? && NoCaseCollision(Keys(prune.values)) &&
      (forall k :: k in Keys(prune.values) ==> Planned(Lower(k), desired, seed, append, entry.attrs)) ==>
        r.Modify?
    ensures var r := Plan(dn, desired, seed, append, prune, Some(entry));
      var all := AllAttributes(desired, seed, append, entry.attrs);
      prune.ByValue? && NoCaseCollision(Keys(prune.values)) && (forall k :: k in Keys(prune.values) ==> Lower(k) in Keys(all)) ==>
        r.Modify? && r.pruneOps == BatchDeletes(all, prune.values, entry.attrs)
  {
    var cur := entry.attrs;
    var all := AllAttributes(desired, seed, append, cur);
    AllAttributesKeys(desired, seed, append, cur);
    PlanShape(dn, desired, seed, append, prune, entry);
    if prune.Whole? {
      PruneWholeCounts(all, prune.names, cur);
    } else {
      PruneValuesSound(all, prune.values, cur);
      if NoCaseCollision(Keys(prune.values)) && (forall k :: k in Keys(prune.values) ==> Lower(k) in Keys(all)) {
        PruneValuesExact(all, prune.values, cur);
      }
    }
  }

  // ---------------------------------------------------------------------------
  // Convergence

  /**
   An entry that already holds what the resource asks for is left alone: with
   nothing to prune, every mentioned name present, each desired list empty or
   the entry's list up to order, and every appended value present, the plan
   has three empty batches and reports no change. A second run plans
   nothing only when the entry the first run left meets these conditions;
   `PlanExamples.AppendAndReplaceAlternate` shows one that does not.
   */
  lemma ConvergedIsNoOp(dn: string, desired: Hash<Value>, seed: Hash<Value>, append: Hash<Value>, entry: CurrentEntry)
    requires WellFormedInput(desired, Whole([]), Some(entry))
    requires forall n :: Mentioned(n, desired, seed, append) ==> n in Keys(entry.attrs)
    requires forall n :: n in Keys(FromHash(FoldKeys(desired))) && n in Keys(entry.attrs) && !Protected(n, dn) ==>
      !DiffersFrom(FromHash(FoldKeys(desired)), entry.attrs, n)
    requires forall n, v :: n in Keys(FromHash(append)) && n in Keys(entry.attrs) && !Protected(n, dn) && v in AsList(Get(FromHash(append), n)) ==>
      v in Get(entry.attrs, n)
    ensures Plan(dn, desired, seed, append, Whole([]), Some(entry)) == Modify([], [], [])
    ensures !Changed(Plan(dn, desired, seed, append, Whole([]), Some(entry)))
  {
    var cur := entry.attrs;
    var all := AllAttributes(desired, seed, append, cur);
    PlanShape(dn, desired, seed, append, Whole([]), entry);
    assert PruneWhole(all, [], cur) == Pruned(all, []);
    ConvergedNoAdds(desired, seed, append, cur);
    ConvergedNoUpdates(dn, desired, seed, append, cur);
  }

  /** With every mentioned name present, nothing is added. */
  lemma ConvergedNoAdds(desired: Hash<Value>, seed: Hash<Value>, append: Hash<Value>, cur: Hash<seq<string>>)
    requires UniqueKeys(desired)
    requires forall k :: k in Keys(cur) ==> IsLower(k)
    requires forall n :: Mentioned(n, desired, seed, append) ==> n in Keys(cur)
    ensures var all := AllAttributes(desired, seed, append, cur);
      AddOps(Keys(all), all, Keys(cur)) == []
  {
    var all := AllAttributes(desired, seed, append, cur);
    AllAttributesKeys(desired, seed, append, cur);
    MinusCovered(Keys(all), Keys(cur));
  }

  /** With every desired list matched and every appended value present, nothing is updated. */
  lemma ConvergedNoUpdates(dn: string, desired: Hash<Value>, seed: Hash<Value>, append: Hash<Value>, cur: Hash<seq<string>>)
    requires UniqueKeys(desired)
    requires forall k :: k in Keys(cur) ==> IsLower(k)
    requires forall n :: n in Keys(FromHash(FoldKeys(desired))) && n in Keys(cur) && !Protected(n, dn) ==>
      !DiffersFrom(FromHash(FoldKeys(desired)), cur, n)
    requires forall n, v :: n in Keys(FromHash(append)) && n in Keys(cur) && !Protected(n, dn) && v in AsList(Get(FromHash(append), n)) ==>
      v in Get(cur, n)
    ensures var all := AllAttributes(desired, seed, append, cur);
      UpdateOps(Inter(Keys(all), Keys(cur)), dn, FromHash(append), NewAttributes(desired, seed, cur), cur) == []
  {
    var d := FromHash(FoldKeys(desired));
    var a := FromHash(append);
    var filled := NewAttributes(desired, seed, cur);
    var names := Inter(Keys(AllAttributes(desired, seed, append, cur)), Keys(cur));
    forall n | n in names ensures Settled(n, dn, a, filled, cur) {
      SettledAt(n, dn, desired, seed, append, cur);
    }
    UpdateOpsSettled(names, dn, a, filled, cur);
  }

  /** One attribute of a converged entry has nothing to update. */
  lemma SettledAt(n: string, dn: string, desired: Hash<Value>, seed: Hash<Value>, append: Hash<Value>, cur: Hash<seq<string>>)
    requires UniqueKeys(desired)
    requires forall k :: k in Keys(cur) ==> IsLower(k)
    requires n in Keys(cur)
    requires n in Keys(FromHash(FoldKeys(desired))) && !Protected(n, dn) ==> !DiffersFrom(FromHash(FoldKeys(desired)), cur, n)
    requires forall v :: n in Keys(FromHash(append)) && !Protected(n, dn) && v in AsList(Get(FromHash(append), n)) ==> v in Get(cur, n)
    ensures Settled(n, dn, FromHash(append), NewAttributes(desired, seed, cur), cur)
  {
    SettledDesired(n, dn, desired, seed, cur);
    SettledAppend(n, dn, FromHash(append), cur);
  }

  /** The desired list of a name the entry has is read unseeded, so a matched one needs no replace. */
  lemma SettledDesired(n: string, dn: string, desired: Hash<Value>, seed: Hash<Value>, cur: Hash<seq<string>>)
    requires UniqueKeys(desired)
    requires forall k :: k in Keys(cur) ==> IsLower(k)
    requires n in Keys(cur)
    requires n in Keys(FromHash(FoldKeys(desired))) && !Protected(n, dn) ==> !DiffersFrom(FromHash(FoldKeys(desired)), cur, n)
    ensures n in Keys(NewAttributes(desired, seed, cur)) && !Protected(n, dn) ==> !NeedsReplace(NewAttributes(desired, seed, cur), cur, n)
  {
    assert Lookup(NewAttributes(desired, seed, cur), n) == Lookup(FromHash(FoldKeys(desired)), n);
  }

  /** Appended values all present: no append is left. */
  lemma SettledAppend(n: string, dn: string, a: Hash<Value>, cur: Hash<seq<string>>)
    requires n in Keys(cur)
    requires forall v :: n in Keys(a) && !Protected(n, dn) && v in AsList(Get(a, n)) ==> v in Get(cur, n)
    ensures n in Keys(a) && !Protected(n, dn) ==> |AppendValues(a, cur, n)| == 0
  {
    if n in Keys(a) && !Protected(n, dn) {
      MinusCovered(AsList(Get(a, n)), Get(cur, n));
    }
  }

  /**
   The plan on an existing entry, batch by batch: a raising prune raises;
   otherwise the adds of the names the entry lacks, read from the pruned
   target, the updates of the names it has, and the prune's deletes.
   */
  lemma PlanShape(dn: string, desired: Hash<Value>, seed: Hash<Value>, append: Hash<Value>,
                  prune: PruneSpec, entry: CurrentEntry)
    requires WellFormedInput(desired, prune, Some(entry))
    ensures var cur := entry.attrs;
      var all := AllAttributes(desired, seed, append, cur);
      var pr := Prune(all, prune, cur);
      Plan(dn, desired, seed, append, prune, Some(entry)) ==
        if pr.PruneCrash? then Crash(pr.attr)
        else Modify(AddOps(Keys(all), pr.target, Keys(cur)),
                    UpdateOps(Inter(Keys(all), Keys(cur)), dn, FromHash(append), NewAttributes(desired, seed, cur), cur),
                    pr.ops)
  {
    assert LowerAll(Keys(entry.attrs)) == Keys(entry.attrs);
    FoldedNames(AllAttributes(desired, seed, append, entry.attrs));
  }

  /**
   Per attribute, a `:replace` settles: once the entry holds the desired list
   for `n`, a later plan yields no `:replace` for `n`.
   */
  lemma ReplaceSettles(dn: string, desired: Hash<Value>, seed: Hash<Value>, append: Hash<Value>,
                       prune: PruneSpec, entry: CurrentEntry, n: string)
    requires WellFormedInput(desired, prune, Some(entry))
    requires n in Keys(FromHash(FoldKeys(desired)))
    ensures var after := CurrentEntry(entry.dn, Store(entry.attrs, n, AsList(Get(FromHash(FoldKeys(desired)), n))));
      WellFormedInput(desired, prune, Some(after)) &&
      var r := Plan(dn, desired, seed, append, prune, Some(after));
      r.Modify? ==> forall op :: op in r.updateOps ==> !(op.kind == Replace && op.name == n)
  {
    var d := FromHash(FoldKeys(desired));
    var after := CurrentEntry(entry.dn, Store(entry.attrs, n, AsList(Get(d, n))));
    assert forall k :: k in Keys(after.attrs) ==> IsLower(k);
    PlanUpdateSpec(dn, desired, seed, append, prune, after);
    assert Get(after.attrs, n) == AsList(Get(d, n));
  }

  /** Nothing to update for `attr`: an identity attribute, or its appends present and its desired list matched. */
  predicate Settled(attr: string, dn: string, append: Hash<Value>, newAttrs: Hash<Value>, cur: Hash<seq<string>>)
    requires attr in Keys(cur)
  {
    || Protected(attr, dn)
    || (&& (attr in Keys(append) ==> |AppendValues(append, cur, attr)| == 0)
        && (attr in Keys(newAttrs) ==> !NeedsReplace(newAttrs, cur, attr)))
  }

  /** An attribute with nothing to update yields no update. */
  lemma UpdateForSettled(attr: string, dn: string, append: Hash<Value>, newAttrs: Hash<Value>, cur: Hash<seq<string>>)
    requires attr in Keys(cur) && Settled(attr, dn, append, newAttrs, cur)
    ensures UpdateFor(attr, dn, append, newAttrs, cur) == []
  {
    if attr in Keys(newAttrs) {
      SortEqualIffPermutation(AsList(Get(newAttrs, attr)), Get(cur, attr));
    }
  }

  /** A batch of attributes with nothing to update yields no update. */
  lemma {:induction false} UpdateOpsSettled(names: seq<string>, dn: string, append: Hash<Value>, newAttrs: Hash<Value>, cur: Hash<seq<string>>)
    requires forall n :: n in names ==> n in Keys(cur) && Settled(n, dn, append, newAttrs, cur)
    ensures UpdateOps(names, dn, append, newAttrs, cur) == []
    decreases |names|
  {
    if |names| > 0 {
      UpdateForSettled(names[0], dn, append, newAttrs, cur);
      UpdateOpsSettled(names[1..], dn, append, newAttrs, cur);
    }
  }

  /** `updated_by_last_action` is set on an existing entry exactly when some batch is submitted. */
  lemma ChangedIffBatches(o: Outcome)
    requires o.Modify?
    ensures Changed(o) <==> |Batches(o)| > 0
  {
  }
}

=== FILE: planner.dfy ===
/**
 The `:create` and `:delete` actions of the `ldap_entry` provider, with every
 call into the directory client replaced by the value handed to it: the
 planner takes the desired resource and the entry read from the directory and
 returns the whole-entry add, or the three modification batches, it would
 submit.
 */
module Planner {
  import opened Wrappers
  import opened RubyString
  import opened RubyArray
  import opened RubySort
  import opened RubyHash
  import opened CaseInsensitiveHash
  import opened EntryModel

  // ---------------------------------------------------------------------------
  // Identity attributes

  /** `name =~ /DN/i`: the name contains "dn" in any case. */
  predicate MatchesDn(name: string): (r: bool)
    ensures r <==> exists i :: 0 <= i < |name| - 1 && LowerChar(name[i]) == 'd' && LowerChar(name[i + 1]) == 'n'
  {
    if |name| < 2 then false
    else if LowerChar(name[0]) == 'd' && LowerChar(name[1]) == 'n' then true
    else
      var r := MatchesDn(name[1..]);
      assert forall i :: 1 <= i < |name| ==> name[1..][i - 1] == name[i];
      assert r ==> exists i :: 1 <= i < |name| - 1 && LowerChar(name[i]) == 'd' && LowerChar(name[i + 1]) == 'n' by {
        if r {
          var k :| 0 <= k < |name| - 2 && LowerChar(name[1..][k]) == 'd' && LowerChar(name[1..][k + 1]) == 'n';
          assert LowerChar(name[k + 1]) == 'd' && LowerChar(name[k + 2]) == 'n';
        }
      }
      r
  }

  /** `dn.split('=').first`: `None` (Ruby's `nil`) when the split has no field. */
  function RdnName(dn: string): (r: Option<string>)
    ensures r.None? <==> forall i :: 0 <= i < |dn| ==> dn[i] == '='
    ensures r.Some? ==> '=' !in r.value && r.value <= dn && (|r.value| == |dn| || dn[|r.value|] == '=')
  {
    var parts := Split(dn, '=');
    if |parts| == 0 then None else Some(parts[0])
  }

  /**
   An attribute the provider never modifies on an existing entry: a DN-style
   name, or one equal to the text before the first `=` of the DN. The latter
   compares the lower-cased name with the DN text as written.
   */
  predicate Protected(name: string, dn: string): (r: bool)
    ensures r <==>
      || (exists i :: 0 <= i < |name| - 1 && LowerChar(name[i]) == 'd' && LowerChar(name[i + 1]) == 'n')
      || (&& (exists j :: 0 <= j < |dn| && dn[j] != '=')
          && name <= dn && '=' !in name && (|name| == |dn| || dn[|name|] == '='))
  {
    RdnPrefixUnique(dn, name);
    MatchesDn(name) || RdnName(dn) == Some(name)
  }

  /** The text before the first `=` is the only `=`-free prefix that ends at an `=` or at the end. */
  lemma RdnPrefixUnique(dn: string, name: string)
    ensures RdnName(dn) == Some(name) <==>
      && (exists j :: 0 <= j < |dn| && dn[j] != '=')
      && name <= dn && '=' !in name && (|name| == |dn| || dn[|name|] == '=')
  {
    var r := RdnName(dn);
    if r.Some? && name <= dn && '=' !in name && (|name| == |dn| || dn[|name|] == '=') {
      var v := r.value;
      assert name == dn[..|name|] && v == dn[..|v|];
    }
  }

  // ---------------------------------------------------------------------------
  // Folding the desired keys to lower case

  /**
   Re-stores each key in `pending`, in order, under its lower-cased name:
   `h[k.downcase] = h.delete(k)`.
   */
  function FoldFrom(h: Hash<Value>, pending: seq<string>): (r: Hash<Value>)
    requires UniqueKeys(h)
    requires Distinct(pending)
    requires forall k :: k in pending ==> k in Keys(h)
    ensures UniqueKeys(r)
    ensures forall j :: j in Keys(r) <==> (j in Keys(h) && j !in pending) || j in LowerAll(pending)
    decreases |pending|
  {
    if |pending| == 0 then h
    else
      FoldStep(h, pending);
      FoldFrom(Store(Remove(h, pending[0]), Lower(pending[0]), Get(h, pending[0])), pending[1..])
  }

  /** One turn of `FoldFrom` keeps its preconditions and accounts for the keys it moves. */
  lemma FoldStep(h: Hash<Value>, pending: seq<string>)
    requires UniqueKeys(h)
    requires Distinct(pending) && |pending| > 0
    requires forall k :: k in pending ==> k in Keys(h)
    ensures var k := pending[0];
      var next := Store(Remove(h, k), Lower(k), Get(h, k));
      && UniqueKeys(next)
      && Distinct(pending[1..])
      && (forall k' :: k' in pending[1..] ==> k' in Keys(next))
      && (forall j :: ((j in Keys(next) && j !in pending[1..]) || j in LowerAll(pending[1..]))
                  <==> ((j in Keys(h) && j !in pending) || j in LowerAll(pending)))
  {
    var k := pending[0];
    var next := Store(Remove(h, k), Lower(k), Get(h, k));
    FoldStepKeys(h, k);
    FoldStepRest(pending);
    FoldStepAccount(Keys(h), Keys(next), pending);
  }

  /** Moving `k` to its lower-cased name: the keys lose `k` and gain `Lower(k)`. */
  lemma FoldStepKeys(h: Hash<Value>, k: string)
    requires UniqueKeys(h) && k in Keys(h)
    ensures var next := Store(Remove(h, k), Lower(k), Get(h, k));
      UniqueKeys(next) && forall j :: j in Keys(next) <==> (j in Keys(h) && j != k) || j == Lower(k)
  {
  }

  /** The names still pending after the first are distinct and differ from it. */
  lemma FoldStepRest(pending: seq<string>)
    requires Distinct(pending) && |pending| > 0
    ensures Distinct(pending[1..])
    ensures forall k' :: k' in pending[1..] ==> k' != pending[0]
  {
    forall k' | k' in pending[1..] ensures k' != pending[0] {
      var i :| 0 <= i < |pending[1..]| && pending[1..][i] == k';
      assert pending[i + 1] == k';
    }
  }

  /** The bookkeeping of one turn: what is folded so far plus what is pending is unchanged. */
  lemma FoldStepAccount(before: seq<string>, after: seq<string>, pending: seq<string>)
    requires |pending| > 0
    requires forall j :: j in after <==> (j in before && j != pending[0]) || j == Lower(pending[0])
    ensures forall j :: ((j in after && j !in pending[1..]) || j in LowerAll(pending[1..]))
                  <==> ((j in before && j !in pending) || j in LowerAll(pending))
  {
    var k := pending[0];
    assert forall x :: x in pending <==> x == k || x in pending[1..];
    assert LowerAll(pending) == [Lower(k)] + LowerAll(pending[1..]);
    forall j | j == Lower(k) && j in pending[1..] ensures j in LowerAll(pending[1..]) {
      var i :| 0 <= i < |pending[1..]| && pending[1..][i] == j;
      assert Lower(Lower(k)) == Lower(k);
      assert LowerAll(pending[1..])[i] == j;
    }
  }

  /** The desired attributes once every key has been lower-cased. */
  function FoldKeys(attrs: Hash<Value>): (r: Hash<Value>)
    requires UniqueKeys(attrs)
    ensures Folded(r)
    ensures forall j :: j in Keys(r) <==> j in LowerAll(Keys(attrs))
  {
    UniqueKeysDistinct(attrs);
    FoldFrom(attrs, Keys(attrs))
  }

  // ---------------------------------------------------------------------------
  // Seed attributes

  /**
   Stores the seed value of every name in `names` into `target`, a bare
   string becoming a one-element list.
   */
  function SeedFill(target: Hash<Value>, seed: Hash<Value>, names: seq<string>): (r: Hash<Value>)
    requires forall n :: n in names ==> n in Keys(seed)
    ensures forall j :: Lookup(r, j) == if j in names then Some(List(AsList(Get(seed, j)))) else Lookup(target, j)
    ensures forall j :: j in Keys(r) <==> j in Keys(target) || j in names
    ensures Folded(target) && (forall n :: n in names ==> IsLower(n)) ==> Folded(r)
    decreases |names|
  {
    if |names| == 0 then target
    else
      assert forall x :: x in names <==> x == names[0] || x in names[1..];
      SeedFill(Store(target, names[0], List(AsList(Get(seed, names[0])))), seed, names[1..])
  }

  /** `new_attributes` once the seeds are in: a seed fills a name the current entry lacks. */
  function NewAttributes(desired: Hash<Value>, seed: Hash<Value>, cur: Hash<seq<string>>): (r: Hash<Value>)
    requires UniqueKeys(desired)
    requires forall k :: k in Keys(cur) ==> IsLower(k)
    ensures Folded(r)
    ensures forall j :: Lookup(r, j) == (if j in Keys(FromHash(seed)) && j !in Keys(cur) then Some(List(AsList(Get(FromHash(seed), j)))) else Lookup(FromHash(FoldKeys(desired)), j))
  {
    var seedAttrs := FromHash(seed);
    var seedNames := LowerAll(Keys(seedAttrs));
    var curNames := LowerAll(Keys(cur));
    assert seedNames == Keys(seedAttrs);
    assert curNames == Keys(cur);
    SeedFill(FromHash(FoldKeys(desired)), seedAttrs, Minus(seedNames, curNames))
  }

  // ---------------------------------------------------------------------------
  // Prune

  /** The whole-attribute prune: drop each name from the target; delete it if the entry has it. */
  function PruneWhole(target: Hash<Value>, names: seq<string>, cur: Hash<seq<string>>): (r: Pruning)
    ensures r.Pruned?
    ensures forall j :: Lookup(r.target, j) == if j in LowerAll(names) then None else Lookup(target, j)
    ensures forall op :: op in r.ops ==> op == Op(Delete, op.name, Nil) && op.name in names && op.name in Keys(cur)
    ensures forall n :: n in names && n in Keys(cur) ==> Op(Delete, n, Nil) in r.ops
    decreases |names|
  {
    if |names| == 0 then Pruned(target, [])
    else
      var n := names[0];
      assert forall x :: x in names <==> x == n || x in names[1..];
      assert LowerAll(names) == [Lower(n)] + LowerAll(names[1..]);
      var rest := PruneWhole(Remove(target, Lower(n)), names[1..], cur);
      var op := if n in Keys(cur) then [Op(Delete, n, Nil)] else [];
      Pruned(rest.target, op + rest.ops)
  }

  /**
   The whole-attribute prune deletes each listed name the entry has as many
   times as the list names it, and nothing else.
   */
  lemma {:induction false} PruneWholeCounts(target: Hash<Value>, names: seq<string>, cur: Hash<seq<string>>)
    ensures forall n :: multiset(OpNames(PruneWhole(target, names, cur).ops))[n]
                        == if n in Keys(cur) then multiset(names)[n] else 0
    decreases |names|
  {
    if |names| > 0 {
      var n := names[0];
      var rest := PruneWhole(Remove(target, Lower(n)), names[1..], cur).ops;
      PruneWholeCounts(Remove(target, Lower(n)), names[1..], cur);
      var op := if n in Keys(cur) then [Op(Delete, n, Nil)] else [];
      assert PruneWhole(target, names, cur).ops == op + rest;
      OpNamesConcat(op, rest);
      assert OpNames(op) == if n in Keys(cur) then [n] else [];
      CountPrepend(OpNames(rest), names, Keys(cur));
    }
  }

  /** Putting the first name in front of the kept names keeps the counts of `PruneWholeCounts`. */
  lemma CountPrepend(ns: seq<string>, names: seq<string>, keys: seq<string>)
    requires |names| > 0
    requires forall m :: multiset(ns)[m] == if m in keys then multiset(names[1..])[m] else 0
    ensures forall m :: multiset((if names[0] in keys then [names[0]] else []) + ns)[m]
                        == if m in keys then multiset(names)[m] else 0
  {
    assert names == [names[0]] + names[1..];
  }

  /**
   The prune of one attribute's values: the values the target shares with
   `values` leave the target, which loses the attribute once its list is
   empty; the remaining values that the entry holds are deleted from it.
   The target is looked up by lower-cased name, the entry by the name as
   given; a name missing from the target raises.
   */
  function PruneValue(target: Hash<Value>, attr: string, values: Value, cur: Hash<seq<string>>): Pruning {
    var name := Lower(attr);
    var vs := AsList(values);
    match Lookup(target, name)
    case None => PruneCrash(attr)
    case Some(tv) =>
      var before := AsList(tv);
      var shred := Inter(before, vs);
      var kept := Minus(before, shred);
      var stored := Store(target, name, List(kept));
      var t := if |kept| == 0 then Remove(stored, name) else stored;
      Pruned(t, ValueDeletes(attr, vs, before, cur))
  }

  /**
   The delete of one value-level prune step: the prune values the target did
   not hold, kept only where the entry holds them (the entry looked up by the
   name as given), and nothing when none is left.
   */
  function ValueDeletes(attr: string, vs: seq<string>, before: seq<string>, cur: Hash<seq<string>>): seq<Op> {
    if attr in Keys(cur) then
      var gone := Inter(Minus(vs, Inter(before, vs)), Get(cur, attr));
      if |gone| > 0 then [Op(Delete, attr, Vals(gone))] else []
    else []
  }

  /** The target after one value-level prune step: the pruned values leave the name's list. */
  lemma PruneValueTarget(target: Hash<Value>, attr: string, values: Value, cur: Hash<seq<string>>)
    requires Lower(attr) in Keys(target)
    ensures var r := PruneValue(target, attr, values, cur);
      var kept := Minus(AsList(Get(target, Lower(attr))), AsList(values));
      && r.Pruned?
      && Lookup(r.target, Lower(attr)) == (if |kept| == 0 then None else Some(List(kept)))
      && (forall j :: j != Lower(attr) ==> Lookup(r.target, j) == Lookup(target, j))
  {
    var name := Lower(attr);
    var vs := AsList(values);
    var before := AsList(Get(target, name));
    var shred := Inter(before, vs);
    MinusCongruent(before, shred, vs);
  }

  /** The ops of one value-level prune step: at most one delete, of values the entry holds. */
  lemma ValueDeletesSpec(attr: string, vs: seq<string>, before: seq<string>, cur: Hash<seq<string>>)
    ensures var ops := ValueDeletes(attr, vs, before, cur);
      && |ops| <= 1
      && (forall op :: op in ops ==>
            && op.kind == Delete && op.name == attr && attr in Keys(cur)
            && op.payload.Vals? && |op.payload.items| > 0 && Distinct(op.payload.items)
            && (forall v :: v in op.payload.items <==> v in vs && v !in before && v in Get(cur, attr)))
      && (attr in Keys(cur) && (exists v :: v in vs && v !in before && v in Get(cur, attr)) ==> |ops| == 1)
  {
    if attr in Keys(cur) {
      var gone := Inter(Minus(vs, Inter(before, vs)), Get(cur, attr));
      assert forall v :: v in gone <==> v in vs && v !in before && v in Get(cur, attr);
    }
  }

  /**
   One value-level prune step raises exactly when the target lacks the name;
   otherwise it removes from the target the values it shares with the prune
   list, and asks the entry to delete only values the entry holds.
   */
  lemma PruneValueSpec(target: Hash<Value>, attr: string, values: Value, cur: Hash<seq<string>>)
    ensures PruneValue(target, attr, values, cur).PruneCrash? <==> Lower(attr) !in Keys(target)
    ensures PruneValue(target, attr, values, cur).PruneCrash? ==> PruneValue(target, attr, values, cur).attr == attr
    ensures Lower(attr) in Keys(target) ==>
      var r := PruneValue(target, attr, values, cur);
      r.Pruned? && PruneValueDone(target, attr, values, cur, r.target, r.ops)
  {
    if Lower(attr) in Keys(target) {
      PruneValueTarget(target, attr, values, cur);
      ValueDeletesSpec(attr, AsList(values), AsList(Get(target, Lower(attr))), cur);
    }
  }

  /** What one value-level prune step promises about the target and the ops it yields. */
  ghost predicate PruneValueDone(target: Hash<Value>, attr: string, values: Value, cur: Hash<seq<string>>,
                                 after: Hash<Value>, ops: seq<Op>)
    requires Lower(attr) in Keys(target)
  {
    var before := AsList(Get(target, Lower(attr)));
    var kept := Minus(before, AsList(values));
    && Lookup(after, Lower(attr)) == (if |kept| == 0 then None else Some(List(kept)))
    && (forall j :: j != Lower(attr) ==> Lookup(after, j) == Lookup(target, j))
    && |ops| <= 1
    && (forall op :: op in ops ==>
          && op.kind == Delete && op.name == attr && attr in Keys(cur)
          && op.payload.Vals? && |op.payload.items| > 0 && Distinct(op.payload.items)
          && (forall v :: v in op.payload.items <==> v in AsList(values) && v !in before && v in Get(cur, attr)))
    && (attr in Keys(cur) && (exists v :: v in AsList(values) && v !in before && v in Get(cur, attr)) ==> |ops| == 1)
  }

  /** No two names lower-case to the same name. */
  predicate NoCaseCollision(names: seq<string>) {
    forall i, j :: 0 <= i < j < |names| ==> Lower(names[i]) != Lower(names[j])
  }

  /**
   A value-level delete names a prune key the entry has, and every value it
   deletes is one the entry holds and the prune list names.
   */
  predicate PruneOpSound(op: Op, pairs: Hash<Value>, cur: Hash<seq<string>>) {
    && op.kind == Delete && op.name in Keys(pairs) && op.name in Keys(cur)
    && op.payload.Vals? && |op.payload.items| > 0
    && (forall v :: v in op.payload.items ==> v in Get(cur, op.name) && v in AsList(Get(pairs, op.name)))
  }

  /** The value-level prune: one step per pair of the prune hash, in hash order. */
  function PruneValues(target: Hash<Value>, pairs: Hash<Value>, cur: Hash<seq<string>>): Pruning
    decreases |pairs|
  {
    if |pairs| == 0 then Pruned(target, [])
    else
      match PruneValue(target, pairs[0].0, pairs[0].1, cur)
      case PruneCrash(a) => PruneCrash(a)
      case Pruned(t, ops) =>
        match PruneValues(t, pairs[1..], cur)
        case PruneCrash(a) => PruneCrash(a)
        case Pruned(t2, ops2) => Pruned(t2, ops + ops2)
  }

  /**
   The value-level prune raises only for a name of the prune hash, and every
   delete it yields is sound in the sense of `PruneOpSound`.
   */
  lemma {:induction false} PruneValuesSound(target: Hash<Value>, pairs: Hash<Value>, cur: Hash<seq<string>>)
    requires UniqueKeys(pairs)
    ensures PruneValues(target, pairs, cur).PruneCrash? ==> PruneValues(target, pairs, cur).attr in Keys(pairs)
    ensures PruneValues(target, pairs, cur).Pruned? ==>
      forall op :: op in PruneValues(target, pairs, cur).ops ==> PruneOpSound(op, pairs, cur)
    decreases |pairs|
  {
    if |pairs| > 0 {
      var attr := pairs[0].0;
      PruneValueSpec(target, attr, pairs[0].1, cur);
      var step := PruneValue(target, attr, pairs[0].1, cur);
      if step.Pruned? {
        PruneValuesSound(step.target, pairs[1..], cur);
        var rest := PruneValues(step.target, pairs[1..], cur);
        if rest.Pruned? {
          assert Get(pairs, attr) == pairs[0].1;
          forall op | op in step.ops ensures PruneOpSound(op, pairs, cur) {
            assert op.name == attr;
          }
          forall op | op in rest.ops ensures PruneOpSound(op, pairs, cur) {
            assert PruneOpSound(op, pairs[1..], cur);
            assert op.name != attr;
            assert Lookup(pairs, op.name) == Lookup(pairs[1..], op.name);
          }
          assert PruneValues(target, pairs, cur).ops == step.ops + rest.ops;
        }
      }
    }
  }

  /** Dropping the first name keeps the names free of case collisions. */
  lemma {:induction false} NoCaseCollisionTail(pairs: Hash<Value>)
    requires |pairs| > 0
    requires NoCaseCollision(Keys(pairs))
    ensures NoCaseCollision(Keys(pairs[1..]))
  {
    forall i, j | 0 <= i < j < |Keys(pairs[1..])| ensures Lower(Keys(pairs[1..])[i]) != Lower(Keys(pairs[1..])[j]) {
      assert Keys(pairs[1..])[i] == Keys(pairs)[i + 1] && Keys(pairs[1..])[j] == Keys(pairs)[j + 1];
    }
  }

  /**
   The first value-level prune step, when no two prune names are equal up to
   case and every one is in the target: it does not raise, it changes the
   target only at its own name, and the rest of the prune hash keeps both
   conditions against the new target.
   */
  lemma PruneValueRest(target: Hash<Value>, pairs: Hash<Value>, cur: Hash<seq<string>>)
    requires |pairs| > 0
    requires NoCaseCollision(Keys(pairs))
    requires forall k :: k in Keys(pairs) ==> Lower(k) in Keys(target)
    ensures var step := PruneValue(target, pairs[0].0, pairs[0].1, cur);
      && step.Pruned?
      && (forall j :: j != Lower(pairs[0].0) ==> Lookup(step.target, j) == Lookup(target, j))
      && NoCaseCollision(Keys(pairs[1..]))
      && (forall k :: k in Keys(pairs[1..]) ==> Lower(k) != Lower(pairs[0].0))
      && (forall k :: k in Keys(pairs[1..]) ==> Lower(k) in Keys(step.target))
  {
    var attr := pairs[0].0;
    PruneValueTarget(target, attr, pairs[0].1, cur);
    var step := PruneValue(target, attr, pairs[0].1, cur);
    assert Keys(pairs) == [attr] + Keys(pairs[1..]);
    forall k | k in Keys(pairs[1..]) ensures Lower(k) != Lower(attr) && Lower(k) in Keys(step.target) {
      var i :| 0 <= i < |Keys(pairs[1..])| && Keys(pairs[1..])[i] == k;
      assert Keys(pairs)[i + 1] == k;
      assert Lookup(step.target, Lower(k)) == Lookup(target, Lower(k));
    }
    NoCaseCollisionTail(pairs);
  }

  /** With no two prune names equal up to case, and every one in the target, the prune does not raise. */
  lemma {:induction false} PruneValuesNoCrash(target: Hash<Value>, pairs: Hash<Value>, cur: Hash<seq<string>>)
    requires NoCaseCollision(Keys(pairs))
    requires forall k :: k in Keys(pairs) ==> Lower(k) in Keys(target)
    ensures PruneValues(target, pairs, cur).Pruned?
    decreases |pairs|
  {
    if |pairs| > 0 {
      PruneValueRest(target, pairs, cur);
      PruneValuesNoCrash(PruneValue(target, pairs[0].0, pairs[0].1, cur).target, pairs[1..], cur);
    }
  }

  /**
   The deletes of the value-level prune read as one batch: for each pair in
   hash order, the delete of that pair worked out against the target as it
   stood before the prune began.
   */
  function BatchDeletes(target: Hash<Value>, pairs: Hash<Value>, cur: Hash<seq<string>>): seq<Op>
    requires forall k :: k in Keys(pairs) ==> Lower(k) in Keys(target)
    decreases |pairs|
  {
    if |pairs| == 0 then []
    else
      assert Keys(pairs) == [pairs[0].0] + Keys(pairs[1..]);
      var attr := pairs[0].0;
      ValueDeletes(attr, AsList(pairs[0].1), AsList(Get(target, Lower(attr))), cur) + BatchDeletes(target, pairs[1..], cur)
  }

  /**
   What the target reads at `j` once the value-level prune is over, read as
   one batch: at the lower-cased name of a pair, the target's list before the
   prune less that pair's values, or nothing once that list is empty; the
   target as it was at any other name.
   */
  function PrunedRead(target: Hash<Value>, pairs: Hash<Value>, j: string): Option<Value>
    requires forall k :: k in Keys(pairs) ==> Lower(k) in Keys(target)
    decreases |pairs|
  {
    if |pairs| == 0 then Lookup(target, j)
    else
      assert Keys(pairs) == [pairs[0].0] + Keys(pairs[1..]);
      if Lower(pairs[0].0) == j then
        var kept := Minus(AsList(Get(target, j)), AsList(pairs[0].1));
        if |kept| == 0 then None else Some(List(kept))
      else PrunedRead(target, pairs[1..], j)
  }

  /** Two targets that agree away from `x` give the same batch, when no pair's name lower-cases to `x`. */
  lemma {:induction false} BatchCongruent(t: Hash<Value>, u: Hash<Value>, pairs: Hash<Value>, cur: Hash<seq<string>>, x: string)
    requires forall k :: k in Keys(pairs) ==> Lower(k) in Keys(t) && Lower(k) in Keys(u) && Lower(k) != x
    requires forall j :: j != x ==> Lookup(t, j) == Lookup(u, j)
    ensures BatchDeletes(t, pairs, cur) == BatchDeletes(u, pairs, cur)
    ensures forall j :: j != x ==> PrunedRead(t, pairs, j) == PrunedRead(u, pairs, j)
    decreases |pairs|
  {
    if |pairs| > 0 {
      assert Keys(pairs) == [pairs[0].0] + Keys(pairs[1..]);
      BatchCongruent(t, u, pairs[1..], cur, x);
    }
  }

  /** Away from every pair's lower-cased name, the batch reads the target as it was. */
  lemma {:induction false} PrunedReadOutside(t: Hash<Value>, pairs: Hash<Value>, j: string)
    requires forall k :: k in Keys(pairs) ==> Lower(k) in Keys(t) && Lower(k) != j
    ensures PrunedRead(t, pairs, j) == Lookup(t, j)
    decreases |pairs|
  {
    if |pairs| > 0 {
      assert Keys(pairs) == [pairs[0].0] + Keys(pairs[1..]);
      PrunedReadOutside(t, pairs[1..], j);
    }
  }

  /** With no two prune names equal up to case, the batch reads at the `i`-th pair's name that pair's list less its values. */
  lemma {:induction false} PrunedReadAt(target: Hash<Value>, pairs: Hash<Value>, i: nat)
    requires NoCaseCollision(Keys(pairs))
    requires forall k :: k in Keys(pairs) ==> Lower(k) in Keys(target)
    requires i < |pairs|
    ensures var kept := Minus(AsList(Get(target, Lower(pairs[i].0))), AsList(pairs[i].1));
      PrunedRead(target, pairs, Lower(pairs[i].0)) == if |kept| == 0 then None else Some(List(kept))
    decreases i
  {
    if i > 0 {
      assert Keys(pairs)[0] == pairs[0].0 && Keys(pairs)[i] == pairs[i].0;
      assert Keys(pairs) == [pairs[0].0] + Keys(pairs[1..]);
      NoCaseCollisionTail(pairs);
      PrunedReadAt(target, pairs[1..], i - 1);
    }
  }

  /**
   With no two prune names equal up to case, the batch reads at each pair's
   lower-cased name that pair's list less its values, and the target as it
   was at every other name.
   */
  lemma PrunedReadSpec(target: Hash<Value>, pairs: Hash<Value>)
    requires NoCaseCollision(Keys(pairs))
    requires forall k :: k in Keys(pairs) ==> Lower(k) in Keys(target)
    ensures forall i :: 0 <= i < |pairs| ==>
      var kept := Minus(AsList(Get(target, Lower(pairs[i].0))), AsList(pairs[i].1));
      PrunedRead(target, pairs, Lower(pairs[i].0)) == if |kept| == 0 then None else Some(List(kept))
    ensures forall j :: j !in LowerAll(Keys(pairs)) ==> PrunedRead(target, pairs, j) == Lookup(target, j)
  {
    forall i | 0 <= i < |pairs|
      ensures var kept := Minus(AsList(Get(target, Lower(pairs[i].0))), AsList(pairs[i].1));
        PrunedRead(target, pairs, Lower(pairs[i].0)) == if |kept| == 0 then None else Some(List(kept))
    {
      PrunedReadAt(target, pairs, i);
    }
    forall j | j !in LowerAll(Keys(pairs)) ensures PrunedRead(target, pairs, j) == Lookup(target, j) {
      forall k | k in Keys(pairs) ensures Lower(k) != j {
        var i :| 0 <= i < |Keys(pairs)| && Keys(pairs)[i] == k;
        assert LowerAll(Keys(pairs))[i] == Lower(k);
      }
      PrunedReadOutside(target, pairs, j);
    }
  }

  /**
   With no two prune names equal up to case and every one in the target, the
   value-level prune is that batch: it does not raise, its deletes are
   `BatchDeletes` in hash order, and its target reads `PrunedRead` at every
   name.
   */
  lemma {:induction false} PruneValuesExact(target: Hash<Value>, pairs: Hash<Value>, cur: Hash<seq<string>>)
    requires NoCaseCollision(Keys(pairs))
    requires forall k :: k in Keys(pairs) ==> Lower(k) in Keys(target)
    ensures var r := PruneValues(target, pairs, cur);
      && r.Pruned?
      && r.ops == BatchDeletes(target, pairs, cur)
      && (forall j :: Lookup(r.target, j) == PrunedRead(target, pairs, j))
    decreases |pairs|
  {
    if |pairs| > 0 {
      var attr := pairs[0].0;
      PruneValueRest(target, pairs, cur);
      PruneValueTarget(target, attr, pairs[0].1, cur);
      var step := PruneValue(target, attr, pairs[0].1, cur);
      PruneValuesExact(step.target, pairs[1..], cur);
      BatchCongruent(step.target, target, pairs[1..], cur, Lower(attr));
      PrunedReadOutside(step.target, pairs[1..], Lower(attr));
      assert Keys(pairs) == [attr] + Keys(pairs[1..]);
    }
  }

  // ---------------------------------------------------------------------------
  // Add and update

  /** One `:add` per name the entry lacks, carrying `[target[name]]`. */
  function AddOps(names: seq<string>, target: Hash<Value>, curNames: seq<string>): (r: seq<Op>)
    ensures forall op :: op in r ==> op == Op(Add, op.name, Wrapped(Lookup(target, op.name))) && op.name in names && op.name !in curNames
    ensures forall n :: n in names && n !in curNames ==> Op(Add, n, Wrapped(Lookup(target, n))) in r
    ensures |r| == |Minus(names, curNames)|
  {
    var missing := Minus(names, curNames);
    var r := seq(|missing|, i requires 0 <= i < |missing| => Op(Add, missing[i], Wrapped(Lookup(target, missing[i]))));
    assert forall n :: n in missing ==> Op(Add, n, Wrapped(Lookup(target, n))) in r by {
      forall n | n in missing ensures Op(Add, n, Wrapped(Lookup(target, n))) in r {
        var i :| 0 <= i < |missing| && missing[i] == n;
        assert r[i] == Op(Add, n, Wrapped(Lookup(target, n)));
      }
    }
    r
  }

  /** `append - current`: the appended values the entry does not hold yet. */
  function AppendValues(append: Hash<Value>, cur: Hash<seq<string>>, attr: string): seq<string>
    requires attr in Keys(append) && attr in Keys(cur)
  {
    Minus(AsList(Get(append, attr)), Get(cur, attr))
  }

  /** True iff the desired list for `attr` is non-empty and not the entry's list up to order. */
  predicate NeedsReplace(newAttrs: Hash<Value>, cur: Hash<seq<string>>, attr: string)
    requires attr in Keys(newAttrs) && attr in Keys(cur)
  {
    var vs := AsList(Get(newAttrs, attr));
    |vs| > 0 && multiset(vs) != multiset(Get(cur, attr))
  }

  /** The `:add` of one attribute's appended values the entry lacks, if any. */
  function AppendOps(attr: string, append: Hash<Value>, cur: Hash<seq<string>>): seq<Op>
    requires attr in Keys(cur)
  {
    match Lookup(append, attr)
    case None => []
    case Some(av) =>
      var vs := Minus(AsList(av), Get(cur, attr));
      if |vs| > 0 then [Op(Add, attr, Vals(vs))] else []
  }

  /** The `:replace` of one attribute with its desired list, when that differs from the entry's once both are sorted. */
  function ReplaceOps(attr: string, newAttrs: Hash<Value>, cur: Hash<seq<string>>): seq<Op>
    requires attr in Keys(cur)
  {
    match Lookup(newAttrs, attr)
    case None => []
    case Some(nv) =>
      var vs := AsList(nv);
      if |vs| > 0 && Sort(vs) != Sort(Get(cur, attr)) then [Op(Replace, attr, Vals(vs))] else []
  }

  /**
   The updates for one attribute the entry has: an `:add` of the appended
   values it lacks, then a `:replace` with the desired list when that differs
   from the entry's list once both are sorted.
   */
  function UpdateFor(attr: string, dn: string, append: Hash<Value>, newAttrs: Hash<Value>, cur: Hash<seq<string>>): seq<Op>
    requires attr in Keys(cur)
  {
    if Protected(attr, dn) then []
    else AppendOps(attr, append, cur) + ReplaceOps(attr, newAttrs, cur)
  }

  /** An update op as the update batch may hold it, for a name of `names`. */
  predicate UpdateOpSound(op: Op, names: seq<string>, dn: string, append: Hash<Value>, newAttrs: Hash<Value>, cur: Hash<seq<string>>) {
    && op.name in names && op.name in Keys(cur) && !Protected(op.name, dn)
    && (op.kind == Add || op.kind == Replace)
    && (op.kind == Add ==>
          op.name in Keys(append) && op.payload == Vals(AppendValues(append, cur, op.name))
          && |AppendValues(append, cur, op.name)| > 0)
    && (op.kind == Replace ==>
          op.name in Keys(newAttrs) && op.payload == Vals(AsList(Get(newAttrs, op.name)))
          && NeedsReplace(newAttrs, cur, op.name))
  }

  /** The append of one attribute is its `:add` exactly when the entry lacks an appended value. */
  lemma AppendOpsSpec(attr: string, append: Hash<Value>, cur: Hash<seq<string>>)
    requires attr in Keys(cur)
    ensures AppendOps(attr, append, cur) ==
      if attr in Keys(append) && |AppendValues(append, cur, attr)| > 0
      then [Op(Add, attr, Vals(AppendValues(append, cur, attr)))] else []
  {
  }

  /**
   The append of one attribute adds only what is missing: at most one `:add`,
   holding exactly the appended values the entry lacks, present exactly when
   some appended value is missing.
   */
  lemma AppendOpsValues(attr: string, append: Hash<Value>, cur: Hash<seq<string>>)
    requires attr in Keys(cur)
    ensures var ops := AppendOps(attr, append, cur);
      && |ops| <= 1
      && (forall op :: op in ops ==>
            && op.kind == Add && op.name == attr && attr in Keys(append) && op.payload.Vals?
            && (forall v :: v in op.payload.items <==> v in AsList(Get(append, attr)) && v !in Get(cur, attr)))
      && (|ops| == 1 <==> attr in Keys(append) && exists v :: v in AsList(Get(append, attr)) && v !in Get(cur, attr))
  {
    AppendOpsSpec(attr, append, cur);
    if attr in Keys(append) {
      var vs := AppendValues(append, cur, attr);
      assert forall v :: v in vs <==> v in AsList(Get(append, attr)) && v !in Get(cur, attr);
      assert |vs| > 0 ==> vs[0] in vs;
    }
  }

  /** The replace of one attribute happens exactly when its desired list is non-empty and not a permutation of the entry's. */
  lemma ReplaceOpsSpec(attr: string, newAttrs: Hash<Value>, cur: Hash<seq<string>>)
    requires attr in Keys(cur)
    ensures ReplaceOps(attr, newAttrs, cur) ==
      if attr in Keys(newAttrs) && NeedsReplace(newAttrs, cur, attr)
      then [Op(Replace, attr, Vals(AsList(Get(newAttrs, attr))))] else []
  {
    if attr in Keys(newAttrs) {
      SortEqualIffPermutation(AsList(Get(newAttrs, attr)), Get(cur, attr));
    }
  }

  /**
   Per attribute: nothing for an identity attribute; an append yields only
   the `:add` of what the entry lacks, and only if that is non-empty; a
   `:replace` comes only from the desired list, and exactly when it is
   non-empty and differs from the entry's list up to order.
   */
  lemma UpdateForSpec(attr: string, dn: string, append: Hash<Value>, newAttrs: Hash<Value>, cur: Hash<seq<string>>)
    requires attr in Keys(cur)
    ensures Protected(attr, dn) ==> UpdateFor(attr, dn, append, newAttrs, cur) == []
    ensures forall op :: op in UpdateFor(attr, dn, append, newAttrs, cur) ==> op.name == attr && UpdateOpSound(op, [attr], dn, append, newAttrs, cur)
    ensures !Protected(attr, dn) && attr in Keys(append) && |AppendValues(append, cur, attr)| > 0 ==>
      Op(Add, attr, Vals(AppendValues(append, cur, attr))) in UpdateFor(attr, dn, append, newAttrs, cur)
    ensures !Protected(attr, dn) && attr in Keys(newAttrs) && NeedsReplace(newAttrs, cur, attr) ==>
      Op(Replace, attr, Vals(AsList(Get(newAttrs, attr)))) in UpdateFor(attr, dn, append, newAttrs, cur)
    ensures var r := UpdateFor(attr, dn, append, newAttrs, cur);
      |r| <= 2 && (|r| == 2 ==> r[0].kind == Add && r[1].kind == Replace)
  {
    if !Protected(attr, dn) {
      AppendOpsSpec(attr, append, cur);
      ReplaceOpsSpec(attr, newAttrs, cur);
      UpdatePairSound(attr, dn, append, newAttrs, cur);
    }
  }

  /** Each of the two updates of an attribute that is not an identity attribute is sound. */
  lemma UpdatePairSound(attr: string, dn: string, append: Hash<Value>, newAttrs: Hash<Value>, cur: Hash<seq<string>>)
    requires attr in Keys(cur) && !Protected(attr, dn)
    ensures forall op :: op in AppendOps(attr, append, cur) + ReplaceOps(attr, newAttrs, cur) ==>
      op.name == attr && UpdateOpSound(op, [attr], dn, append, newAttrs, cur)
  {
    AppendOpsSpec(attr, append, cur);
    ReplaceOpsSpec(attr, newAttrs, cur);
    var appendOps := AppendOps(attr, append, cur);
    var replaceOps := ReplaceOps(attr, newAttrs, cur);
    forall op: Op | op in appendOps + replaceOps ensures op.name == attr && UpdateOpSound(op, [attr], dn, append, newAttrs, cur) {
      if op in appendOps { assert op == appendOps[0]; } else { assert op == replaceOps[0]; }
    }
  }

  /** The update batch: the updates of each name, in the order of `names`. */
  function UpdateOps(names: seq<string>, dn: string, append: Hash<Value>, newAttrs: Hash<Value>, cur: Hash<seq<string>>): seq<Op>
    requires forall n :: n in names ==> n in Keys(cur)
    decreases |names|
  {
    if |names| == 0 then []
    else UpdateFor(names[0], dn, append, newAttrs, cur) + UpdateOps(names[1..], dn, append, newAttrs, cur)
  }

  /**
   The update batch holds only sound updates of the given names, and every
   append and replace that some name calls for.
   */
  lemma {:induction false} UpdateOpsSpec(names: seq<string>, dn: string, append: Hash<Value>, newAttrs: Hash<Value>, cur: Hash<seq<string>>)
    requires forall n :: n in names ==> n in Keys(cur)
    ensures forall op :: op in UpdateOps(names, dn, append, newAttrs, cur) ==> UpdateOpSound(op, names, dn, append, newAttrs, cur)
    ensures forall n :: n in names && !Protected(n, dn) && n in Keys(append) && |AppendValues(append, cur, n)| > 0 ==>
      Op(Add, n, Vals(AppendValues(append, cur, n))) in UpdateOps(names, dn, append, newAttrs, cur)
    ensures forall n :: n in names && !Protected(n, dn) && n in Keys(newAttrs) && NeedsReplace(newAttrs, cur, n) ==>
      Op(Replace, n, Vals(AsList(Get(newAttrs, n)))) in UpdateOps(names, dn, append, newAttrs, cur)
    decreases |names|
  {
    if |names| > 0 {
      var head := UpdateFor(names[0], dn, append, newAttrs, cur);
      UpdateForSpec(names[0], dn, append, newAttrs, cur);
      UpdateOpsSpec(names[1..], dn, append, newAttrs, cur);
      var tail := UpdateOps(names[1..], dn, append, newAttrs, cur);
      assert UpdateOps(names, dn, append, newAttrs, cur) == head + tail;
      assert forall x :: x in names <==> x == names[0] || x in names[1..];
      forall op | op in head + tail ensures UpdateOpSound(op, names, dn, append, newAttrs, cur) {
        if op in head {
          assert UpdateOpSound(op, [names[0]], dn, append, newAttrs, cur);
        } else {
          assert UpdateOpSound(op, names[1..], dn, append, newAttrs, cur);
        }
      }
    }
  }

  /**
   Two ops on the same name are an `:add` followed by a `:replace`: each name
   has at most one of each, the `:add` first.
   */
  predicate AddThenReplace(ops: seq<Op>) {
    forall i, j :: 0 <= i < j < |ops| && ops[i].name == ops[j].name ==> ops[i].kind == Add && ops[j].kind == Replace
  }

  /** Ops that all name `h` count `|ops|` times for `h` and never for another name. */
  lemma {:induction false} SameNameCount(ops: seq<Op>, h: string)
    requires forall op :: op in ops ==> op.name == h
    ensures forall n :: multiset(OpNames(ops))[n] == if n == h then |ops| else 0
    decreases |ops|
  {
    if |ops| > 0 {
      SameNameCount(ops[1..], h);
      OpNamesConcat([ops[0]], ops[1..]);
      assert ops == [ops[0]] + ops[1..];
      assert OpNames([ops[0]]) == [h];
    }
  }

  /**
   Over distinct names the update batch names each one exactly as often as
   its own updates do, and no other name.
   */
  lemma {:induction false} UpdateOpsCounts(names: seq<string>, dn: string, append: Hash<Value>, newAttrs: Hash<Value>, cur: Hash<seq<string>>)
    requires forall n :: n in names ==> n in Keys(cur)
    requires Distinct(names)
    ensures forall n :: multiset(OpNames(UpdateOps(names, dn, append, newAttrs, cur)))[n]
                        == if n in names then |UpdateFor(n, dn, append, newAttrs, cur)| else 0
    decreases |names|
  {
    if |names| > 0 {
      var h := names[0];
      var head := UpdateFor(h, dn, append, newAttrs, cur);
      var tail := UpdateOps(names[1..], dn, append, newAttrs, cur);
      UpdateForSpec(h, dn, append, newAttrs, cur);
      SameNameCount(head, h);
      DistinctTail(names);
      UpdateOpsCounts(names[1..], dn, append, newAttrs, cur);
      OpNamesConcat(head, tail);
      assert UpdateOps(names, dn, append, newAttrs, cur) == head + tail;
      DistinctFirst(names);
      assert forall x :: x in names <==> x == h || x in names[1..];
    }
  }

  /** Joining two ordered batches on disjoint names keeps them ordered. */
  lemma ConcatAddThenReplace(head: seq<Op>, tail: seq<Op>, h: string)
    requires AddThenReplace(head) && AddThenReplace(tail)
    requires forall op :: op in head ==> op.name == h
    requires forall op :: op in tail ==> op.name != h
    ensures AddThenReplace(head + tail)
  {
    var ops := head + tail;
    forall i, j | 0 <= i < |head| <= j < |ops| ensures ops[i].name != ops[j].name {
      assert ops[i] in head && ops[j] in tail;
    }
    forall i, j | 0 <= i < j < |ops| && ops[i].name == ops[j].name ensures ops[i].kind == Add && ops[j].kind == Replace {
      if j < |head| {
        assert ops[i] == head[i] && ops[j] == head[j];
      } else if i >= |head| {
        assert ops[i] == tail[i - |head|] && ops[j] == tail[j - |head|];
      }
    }
  }

  /** The updates of one attribute all name it, the `:add` before the `:replace`. */
  lemma UpdateForOrdered(attr: string, dn: string, append: Hash<Value>, newAttrs: Hash<Value>, cur: Hash<seq<string>>)
    requires attr in Keys(cur)
    ensures AddThenReplace(UpdateFor(attr, dn, append, newAttrs, cur))
    ensures forall op :: op in UpdateFor(attr, dn, append, newAttrs, cur) ==> op.name == attr
  {
    if !Protected(attr, dn) {
      AppendOpsValues(attr, append, cur);
      ReplaceOpsSpec(attr, newAttrs, cur);
      AddReplacePair(AppendOps(attr, append, cur), ReplaceOps(attr, newAttrs, cur), attr);
    }
  }

  /** At most one `:add` then at most one `:replace`, all of `attr`. */
  lemma AddReplacePair(adds: seq<Op>, reps: seq<Op>, attr: string)
    requires |adds| <= 1 && |reps| <= 1
    requires forall op :: op in adds ==> op.name == attr && op.kind == Add
    requires forall op :: op in reps ==> op.name == attr && op.kind == Replace
    ensures AddThenReplace(adds + reps)
    ensures forall op :: op in adds + reps ==> op.name == attr
  {
    var r := adds + reps;
    forall i, j | 0 <= i < j < |r| && r[i].name == r[j].name ensures r[i].kind == Add && r[j].kind == Replace {
      assert r[i] == adds[0] && r[j] == reps[0];
    }
  }

  /** Every op of the update batch names one of the names it runs over. */
  lemma {:induction false} UpdateOpsNames(names: seq<string>, dn: string, append: Hash<Value>, newAttrs: Hash<Value>, cur: Hash<seq<string>>)
    requires forall n :: n in names ==> n in Keys(cur)
    ensures forall op :: op in UpdateOps(names, dn, append, newAttrs, cur) ==> op.name in names
    decreases |names|
  {
    if |names| > 0 {
      UpdateForOrdered(names[0], dn, append, newAttrs, cur);
      UpdateOpsNames(names[1..], dn, append, newAttrs, cur);
      assert forall x :: x in names[1..] ==> x in names;
    }
  }

  /**
   Over distinct names the update batch holds, per name, at most one `:add`
   and at most one `:replace`, the `:add` first.
   */
  lemma {:induction false} UpdateOpsOrdered(names: seq<string>, dn: string, append: Hash<Value>, newAttrs: Hash<Value>, cur: Hash<seq<string>>)
    requires forall n :: n in names ==> n in Keys(cur)
    requires Distinct(names)
    ensures AddThenReplace(UpdateOps(names, dn, append, newAttrs, cur))
    decreases |names|
  {
    if |names| > 0 {
      var h := names[0];
      var head := UpdateFor(h, dn, append, newAttrs, cur);
      var tail := UpdateOps(names[1..], dn, append, newAttrs, cur);
      UpdateForOrdered(h, dn, append, newAttrs, cur);
      DistinctTail(names);
      DistinctFirst(names);
      UpdateOpsOrdered(names[1..], dn, append, newAttrs, cur);
      UpdateOpsNames(names[1..], dn, append, newAttrs, cur);
      ConcatAddThenReplace(head, tail, h);
    }
  }

  // ---------------------------------------------------------------------------
  // The `:create` action

  /** What the Ruby runtime guarantees of the inputs. */
  predicate WellFormedInput(desired: Hash<Value>, prune: PruneSpec, current: Option<CurrentEntry>) {
    && UniqueKeys(desired)
    && (prune.ByValue? ==> UniqueKeys(prune.values))
    && (current.Some? ==> forall k :: k in Keys(current.value.attrs) ==> IsLower(k))
  }

  /** `all_attributes` (line 70): the seeded desired attributes with the append attributes merged over them. */
  function AllAttributes(desired: Hash<Value>, seed: Hash<Value>, append: Hash<Value>, cur: Hash<seq<string>>): (r: Hash<Value>)
    requires UniqueKeys(desired)
    requires forall k :: k in Keys(cur) ==> IsLower(k)
    ensures Folded(r)
  {
    var filled := NewAttributes(desired, seed, cur);
    var appendAttrs := FromHash(append);
    var r := Merge(filled, appendAttrs);
    assert forall k :: k in Keys(r) ==> k in Keys(filled) || k in Keys(appendAttrs);
    r
  }

  /** The prune of lines 73–101, in whichever of its two forms the resource gives. */
  function Prune(all: Hash<Value>, prune: PruneSpec, cur: Hash<seq<string>>): Pruning {
    match prune
    case Whole(names) => PruneWhole(all, names, cur)
    case ByValue(values) => PruneValues(all, values, cur)
  }

  /**
   The `:create` action. With no entry in the directory it adds the whole
   entry, the append attributes merged over the seeds merged over the desired
   ones; otherwise it computes the add, update and prune batches.
   */
  function Plan(dn: string, desired: Hash<Value>, seed: Hash<Value>, append: Hash<Value>,
                prune: PruneSpec, current: Option<CurrentEntry>): (r: Outcome)
    requires WellFormedInput(desired, prune, current)
    ensures r.Create? <==> current.None?
  {
    match current
    case None => Create(Merge(Merge(FromHash(FoldKeys(desired)), FromHash(seed)), FromHash(append)))
    case Some(entry) => PlanModify(dn, desired, seed, append, prune, entry.attrs)
  }

  /** The `:create` action on an entry that exists (lines 59–161). */
  function PlanModify(dn: string, desired: Hash<Value>, seed: Hash<Value>, append: Hash<Value>,
                      prune: PruneSpec, cur: Hash<seq<string>>): (r: Outcome)
    requires UniqueKeys(desired)
    requires forall k :: k in Keys(cur) ==> IsLower(k)
    ensures !r.Create?
  {
    var curNames := LowerAll(Keys(cur));
    var filled := NewAttributes(desired, seed, cur);
    var all := AllAttributes(desired, seed, append, cur);
    var allNames := LowerAll(Keys(all));
    assert curNames == Keys(cur);
    match Prune(all, prune, cur)
    case PruneCrash(attr) => Crash(attr)
    case Pruned(target, pruneOps) =>
      Modify(AddOps(allNames, target, curNames), UpdateOps(Inter(allNames, curNames), dn, FromHash(append), filled, cur), pruneOps)
  }

  // ---------------------------------------------------------------------------
  // Submitting the batches

  function Flatten(batches: seq<seq<Op>>): seq<Op> {
    if |batches| == 0 then [] else batches[0] + Flatten(batches[1..])
  }

  /** The `modify_entry` calls, in order: each non-empty batch once, add, then update, then prune. */
  function Batches(o: Outcome): (r: seq<seq<Op>>)
    requires o.Modify?
    ensures forall b :: b in r ==> |b| > 0
    ensures forall i :: 0 <= i < |r| ==> r[i] == o.addOps || r[i] == o.updateOps || r[i] == o.pruneOps
    ensures Flatten(r) == o.addOps + o.updateOps + o.pruneOps
    ensures |r| == (if |o.addOps| > 0 then 1 else 0) + (if |o.updateOps| > 0 then 1 else 0) + (if |o.pruneOps| > 0 then 1 else 0)
  {
    var a := if |o.addOps| > 0 then [o.addOps] else [];
    var u := if |o.updateOps| > 0 then [o.updateOps] else [];
    var p := if |o.pruneOps| > 0 then [o.pruneOps] else [];
    FlattenSingle(o.addOps);
    FlattenSingle(o.updateOps);
    FlattenSingle(o.pruneOps);
    FlattenConcat(a, u);
    FlattenConcat(a + u, p);
    a + u + p
  }

  lemma FlattenSingle(b: seq<Op>)
    ensures Flatten([b]) == b
  {
    assert [b][1..] == [];
  }

  lemma {:induction false} FlattenConcat(a: seq<seq<Op>>, b: seq<seq<Op>>)
    ensures Flatten(a + b) == Flatten(a) + Flatten(b)
  {
    if |a| == 0 {
      assert a + b == b;
    } else {
      assert (a + b)[1..] == a[1..] + b;
      FlattenConcat(a[1..], b);
    }
  }

  /**
   `updated_by_last_action`: a created entry, or a modification whose batches
   have a non-empty union (`add_keys | update_keys | prune_keys`).
   */
  predicate Changed(o: Outcome) {
    match o
    case Create(_) => true
    case Modify(addOps, updateOps, pruneOps) => |Union(Union(addOps, updateOps), pruneOps)| > 0
    case Crash(_) => false
  }

  // ---------------------------------------------------------------------------
  // The `:delete` action

  /** The DN handed to `delete_entry`: the entry's own, and only when there is an entry. */
  function PlanDelete(current: Option<CurrentEntry>): (r: Option<string>)
    ensures r.Some? <==> current.Some?
    ensures r.Some? ==> r.value == current.value.dn
  {
    match current
    case None => None
    case Some(entry) => Some(entry.dn)
  }
}

=== FILE: ruby_array.dfy ===
/**
 Ruby's `Array#-`, `Array#&` and `Array#|`, which the entry provider uses to
 compare lists of attribute names and lists of attribute values.
 */
module RubyArray {

  /** No element occurs twice. */
  predicate Distinct<T(==,!new)>(s: seq<T>) {
    forall i, j :: 0 <= i < j < |s| ==> s[i] != s[j]
  }

  /** The first element of a distinct sequence does not recur. */
  lemma DistinctFirst<T(!new)>(s: seq<T>)
    requires |s| > 0 && Distinct(s)
    ensures s[0] !in s[1..]
  {
    forall i | 0 <= i < |s| - 1 ensures s[1..][i] != s[0] {
      assert s[1..][i] == s[i + 1];
    }
  }

  /** Dropping the first element keeps the rest distinct. */
  lemma DistinctTail<T(!new)>(s: seq<T>)
    requires |s| > 0 && Distinct(s)
    ensures Distinct(s[1..])
  {
    forall i, j | 0 <= i < j < |s| - 1 ensures s[1..][i] != s[1..][j] {
      assert s[1..][i] == s[i + 1] && s[1..][j] == s[j + 1];
    }
  }

  /** The index of the first occurrence of `x` in `s`. */
  function FirstIndex<T(==)>(s: seq<T>, x: T): (r: nat)
    requires x in s
    ensures r < |s| && s[r] == x
    ensures forall k :: 0 <= k < r ==> s[k] != x
  {
    if s[0] == x then 0 else 1 + FirstIndex(s[1..], x)
  }

  /** Appending an element leaves the first occurrence of an earlier element where it was. */
  lemma {:induction false} FirstIndexSnoc<T>(s: seq<T>, x: T, y: T)
    requires y in s
    ensures FirstIndex(s + [x], y) == FirstIndex(s, y)
  {
    if s[0] != y {
      assert (s + [x])[1..] == s[1..] + [x];
      FirstIndexSnoc(s[1..], x, y);
    }
  }

  /**
   `a - b`: every element of `a` that does not occur in `b`, in `a`'s order;
   an element that survives keeps all its occurrences.
   */
  function Minus<T(==,!new)>(a: seq<T>, b: seq<T>): (r: seq<T>)
    ensures forall x :: x in r <==> x in a && x !in b
    ensures |r| <= |a|
  {
    if |a| == 0 then []
    else
      assert a == [a[0]] + a[1..];
      (if a[0] in b then [] else [a[0]]) + Minus(a[1..], b)
  }

  /** `a - b` keeps `a`'s order: it works element by element, so it distributes over concatenation. */
  lemma {:induction false} MinusConcat<T(!new)>(a: seq<T>, c: seq<T>, b: seq<T>)
    ensures Minus(a + c, b) == Minus(a, b) + Minus(c, b)
  {
    if |a| == 0 {
      assert a + c == c;
    } else {
      var x, t := a[0], a[1..];
      var hd := if x in b then [] else [x];
      assert a == [x] + t;
      assert a + c == [x] + (t + c);
      MinusCons(x, t, b);
      MinusCons(x, t + c, b);
      MinusConcat(t, c, b);
      calc {
        Minus(a + c, b);
        hd + Minus(t + c, b);
        hd + (Minus(t, b) + Minus(c, b));
        { SeqAssoc(hd, Minus(t, b), Minus(c, b)); }
        (hd + Minus(t, b)) + Minus(c, b);
        Minus(a, b) + Minus(c, b);
      }
    }
  }

  /** Concatenation is associative. */
  lemma SeqAssoc<T>(p: seq<T>, q: seq<T>, r: seq<T>)
    ensures p + (q + r) == (p + q) + r
  {
  }

  /** `([x] + t) - b` keeps `x` in front exactly when `b` lacks it. */
  lemma MinusCons<T(!new)>(x: T, t: seq<T>, b: seq<T>)
    ensures Minus([x] + t, b) == (if x in b then [] else [x]) + Minus(t, b)
  {
    assert ([x] + t)[0] == x;
    assert ([x] + t)[1..] == t;
  }


  /** `a - b` drops every occurrence of what `b` holds and keeps every occurrence of the rest. */
  lemma {:induction false} MinusCounts<T(!new)>(a: seq<T>, b: seq<T>, x: T)
    ensures multiset(Minus(a, b))[x] == if x in b then 0 else multiset(a)[x]
  {
    if |a| > 0 {
      assert a == [a[0]] + a[1..];
      MinusCounts(a[1..], b, x);
    }
  }

  /** `a - b` is empty when `b` holds every element of `a`. */
  lemma {:induction false} MinusCovered<T(!new)>(a: seq<T>, b: seq<T>)
    requires forall x :: x in a ==> x in b
    ensures Minus(a, b) == []
  {
    if |a| > 0 {
      MinusCovered(a[1..], b);
    }
  }

  /** `a - b` depends on `b` only through which elements of `a` it holds. */
  lemma {:induction false} MinusCongruent<T(!new)>(a: seq<T>, b: seq<T>, c: seq<T>)
    requires forall x :: x in a ==> (x in b <==> x in c)
    ensures Minus(a, b) == Minus(a, c)
  {
    if |a| > 0 {
      MinusCongruent(a[1..], b, c);
    }
  }

  /**
   `a & b`: the elements of `a` that also occur in `b`, each once, in the
   order of their first occurrence in `a`.
   */
  function Inter<T(==,!new)>(a: seq<T>, b: seq<T>): (r: seq<T>)
    ensures forall x :: x in r <==> x in a && x in b
    ensures Distinct(r)
  {
    if |a| == 0 then []
    else
      var init := a[..|a| - 1];
      var x := a[|a| - 1];
      assert a == init + [x];
      assert forall y :: y in a <==> y in init || y == x;
      var p := Inter(init, b);
      if x in b && x !in init then p + [x] else p
  }

  /** `a & b` lists the shared elements in the order of their first occurrence in `a`. */
  lemma {:induction false} InterOrder<T(!new)>(a: seq<T>, b: seq<T>)
    ensures InFirstOrder(a, Inter(a, b))
  {
    if |a| > 0 {
      var init := a[..|a| - 1];
      var x := a[|a| - 1];
      assert a == init + [x];
      InterOrder(init, b);
      if x in b && x !in init {
        OrderSnoc(init, x, Inter(init, b));
      } else {
        OrderKept(init, x, Inter(init, b));
      }
    }
  }

  /** Elements of `p` listed in order of first occurrence in `s`. */
  ghost predicate InFirstOrder<T>(s: seq<T>, p: seq<T>) {
    && (forall y :: y in p ==> y in s)
    && (forall i, j :: 0 <= i < j < |p| ==> FirstIndex(s, p[i]) < FirstIndex(s, p[j]))
  }

  /** Appending to `s` keeps the order of elements `s` already has. */
  lemma OrderKept<T>(s: seq<T>, x: T, p: seq<T>)
    requires InFirstOrder(s, p)
    ensures InFirstOrder(s + [x], p)
  {
    forall y | y in p ensures FirstIndex(s + [x], y) == FirstIndex(s, y) {
      FirstIndexSnoc(s, x, y);
    }
  }

  /** A new last element of `s` comes after all the elements `s` already has. */
  lemma OrderSnoc<T>(s: seq<T>, x: T, p: seq<T>)
    requires InFirstOrder(s, p) && x !in s
    ensures InFirstOrder(s + [x], p + [x])
  {
    OrderKept(s, x, p);
    assert FirstIndex(s + [x], x) == |s| by {
      assert (s + [x])[|s|] == x;
    }
    var r := p + [x];
    forall i, j | 0 <= i < j < |r| ensures FirstIndex(s + [x], r[i]) < FirstIndex(s + [x], r[j]) {
      assert r[i] == p[i];
      if j < |p| { assert r[j] == p[j]; }
    }
  }

  /** Removes the later repetitions of every element, keeping first occurrences in order. */
  function Dedup<T(==,!new)>(s: seq<T>): (r: seq<T>)
    ensures forall x :: x in r <==> x in s
    ensures Distinct(r)
  {
    if |s| == 0 then []
    else
      var init := s[..|s| - 1];
      var x := s[|s| - 1];
      assert forall y :: y in s <==> y in init || y == x;
      var p := Dedup(init);
      if x in init then p else p + [x]
  }

  /** `a | b`: the elements of either, each once, `a`'s first. */
  function Union<T(==,!new)>(a: seq<T>, b: seq<T>): (r: seq<T>)
    ensures forall x :: x in r <==> x in a || x in b
    ensures Distinct(r)
    ensures |r| == 0 <==> |a| == 0 && |b| == 0
  {
    assert |a| > 0 ==> a[0] in a + b;
    assert |b| > 0 ==> b[0] in a + b;
    Dedup(a + b)
  }
}

=== FILE: ruby_hash.dfy ===
/**
 A Ruby `Hash` from names to values: an insertion-ordered list of pairs.
 Order matters because the provider emits one operation per key, in key order.
 */
module RubyHash {
  import opened Wrappers
  import opened RubyArray

  type Hash<V> = seq<(string, V)>

  /** `h.keys`, in insertion order. */
  function Keys<V>(h: Hash<V>): (r: seq<string>)
    ensures |r| == |h|
    ensures forall i :: 0 <= i < |h| ==> r[i] == h[i].0
  {
    if |h| == 0 then [] else [h[0].0] + Keys(h[1..])
  }

  lemma KeysConcat<V>(a: Hash<V>, b: Hash<V>)
    ensures Keys(a + b) == Keys(a) + Keys(b)
  {
  }

  /** Every Ruby `Hash` has this shape: no key occurs twice. */
  predicate UniqueKeys<V>(h: Hash<V>) {
    |h| == 0 || (h[0].0 !in Keys(h[1..]) && UniqueKeys(h[1..]))
  }

  lemma {:induction false} UniqueKeysDistinct<V>(h: Hash<V>)
    ensures UniqueKeys(h) <==> Distinct(Keys(h))
  {
    if |h| > 0 {
      UniqueKeysDistinct(h[1..]);
      assert Keys(h) == [h[0].0] + Keys(h[1..]);
    }
  }

  /** `h[k]`, with `None` for a missing key (Ruby's `nil`). */
  function Lookup<V>(h: Hash<V>, k: string): (r: Option<V>)
    ensures r.Some? <==> k in Keys(h)
    ensures r.Some? ==> (k, r.value) in h
  {
    if |h| == 0 then None
    else if h[0].0 == k then Some(h[0].1)
    else
      Lookup(h[1..], k)
  }

  function Get<V>(h: Hash<V>, k: string): V
    requires k in Keys(h)
  {
    Lookup(h, k).value
  }

  /** `h[k] = v`: an existing key keeps its position, a new key goes last. */
  function Store<V>(h: Hash<V>, k: string, v: V): (r: Hash<V>)
    ensures forall j :: Lookup(r, j) == if j == k then Some(v) else Lookup(h, j)
    ensures Keys(r) == if k in Keys(h) then Keys(h) else Keys(h) + [k]
    ensures UniqueKeys(h) ==> UniqueKeys(r)
  {
    if |h| == 0 then [(k, v)]
    else
      if h[0].0 == k then
        assert ([(k, v)] + h[1..])[1..] == h[1..];
        [(k, v)] + h[1..]
      else
        var rest := Store(h[1..], k, v);
        assert ([h[0]] + rest)[1..] == rest;
        [h[0]] + rest
  }

  /** `h.delete(k)`. */
  function Remove<V>(h: Hash<V>, k: string): (r: Hash<V>)
    ensures forall j :: Lookup(r, j) == if j == k then None else Lookup(h, j)
    ensures Keys(r) == Minus(Keys(h), [k])
    ensures UniqueKeys(h) ==> UniqueKeys(r)
  {
    if |h| == 0 then []
    else
      var rest := Remove(h[1..], k);
      if h[0].0 == k then rest
      else
        assert ([h[0]] + rest)[1..] == rest;
        [h[0]] + rest
  }

  /** Storing a key the hash lacks appends it. */
  lemma {:induction false} StoreAbsent<V>(h: Hash<V>, k: string, v: V)
    requires k !in Keys(h)
    ensures Store(h, k, v) == h + [(k, v)]
  {
    if |h| > 0 {
      assert Keys(h) == [h[0].0] + Keys(h[1..]);
      StoreAbsent(h[1..], k, v);
      assert Store(h, k, v) == [h[0]] + Store(h[1..], k, v);
      assert h + [(k, v)] == [h[0]] + (h[1..] + [(k, v)]);
    }
  }

  /** Deleting a key the hash lacks changes nothing. */
  lemma {:induction false} RemoveAbsent<V>(h: Hash<V>, k: string)
    requires k !in Keys(h)
    ensures Remove(h, k) == h
  {
    if |h| > 0 {
      RemoveAbsent(h[1..], k);
      assert h == [h[0]] + h[1..];
    }
  }

  /** `a.merge(b)`: on a shared key the value of `b` wins. */
  function Merge<V>(a: Hash<V>, b: Hash<V>): (r: Hash<V>)
    requires UniqueKeys(b)
    decreases |b|
    ensures forall j :: Lookup(r, j) == if j in Keys(b) then Lookup(b, j) else Lookup(a, j)
    ensures forall j :: j in Keys(r) <==> j in Keys(a) || j in Keys(b)
    ensures UniqueKeys(a) ==> UniqueKeys(r)
  {
    if |b| == 0 then a
    else
      Merge(Store(a, b[0].0, b[0].1), b[1..])
  }

  /** The finite map a hash denotes, forgetting the order of its keys. */
  function ToMap<V>(h: Hash<V>): (m: map<string, V>)
    ensures m.Keys == set k | k in Keys(h)
    ensures forall k :: k in m ==> Lookup(h, k) == Some(m[k])
  {
    map k | k in Keys(h) :: Get(h, k)
  }

  /** `Hash#merge` denotes map union in which the right-hand map wins. */
  lemma MergeIsMapUnion<V>(a: Hash<V>, b: Hash<V>)
    requires UniqueKeys(b)
    ensures ToMap(Merge(a, b)) == ToMap(a) + ToMap(b)
  {
  }
}

/**
 The case-insensitive, case-preserving hash (`CICPHash`) the provider builds
 its working sets in. Its library is not part of this model; it is abstracted
 as a `Hash` whose keys are the lower-cased names, looked up by lower-cased
 name.
 */
module CaseInsensitiveHash {
  import opened Wrappers
  import opened RubyString
  import opened RubyHash

  /** The invariant of the abstraction: lower-cased keys, none twice. */
  predicate Folded<V>(h: Hash<V>) {
    UniqueKeys(h) && forall k :: k in Keys(h) ==> IsLower(k)
  }

  /** Listing the keys of a folded hash lower-cased gives its keys. */
  lemma FoldedNames<V>(h: Hash<V>)
    requires Folded(h)
    ensures LowerAll(Keys(h)) == Keys(h)
  {
    assert forall i :: 0 <= i < |Keys(h)| ==> IsLower(Keys(h)[i]);
  }

  /**
   `CICPHash.new.merge(raw)`: every pair stored under its lower-cased key, so
   of several keys that differ only in case the last one's value is kept.
   */
  function FromHash<V>(raw: Hash<V>): (r: Hash<V>)
    ensures Folded(r)
    ensures forall j :: j in Keys(r) <==> j in LowerAll(Keys(raw))
  {
    if |raw| == 0 then []
    else
      var init := raw[..|raw| - 1];
      var last := raw[|raw| - 1];
      assert raw == init + [last];
      LowerKeysSnoc(init, last);
      var p := FromHash(init);
      Store(p, Lower(last.0), last.1)
  }

  /** The lower-cased key list of a hash grown by one pair grows by that pair's lower-cased key. */
  lemma LowerKeysSnoc<V>(init: Hash<V>, last: (string, V))
    ensures LowerAll(Keys(init + [last])) == LowerAll(Keys(init)) + [Lower(last.0)]
  {
    KeysConcat(init, [last]);
  }

  /** Of the raw keys that lower-case to the same name, the last one's value is kept. */
  lemma {:induction false} FromHashLastWins<V>(raw: Hash<V>, i: nat)
    requires i < |raw|
    requires forall i' :: i < i' < |raw| ==> Lower(raw[i'].0) != Lower(raw[i].0)
    ensures Lookup(FromHash(raw), Lower(raw[i].0)) == Some(raw[i].1)
  {
    if i < |raw| - 1 {
      var init := raw[..|raw| - 1];
      assert Lower(raw[|raw| - 1].0) != Lower(raw[i].0);
      FromHashLastWins(init, i);
    }
  }
}

=== FILE: ruby_sort.dfy ===
/**
 `Array#sort` on arrays of strings, ordered as `String#<=>` orders them:
 character by character, a proper prefix first.
 */
module RubySort {

  /** `a <= b` for Ruby strings (code-point order, which for UTF-8 is byte order). */
  predicate StrLe(a: string, b: string) {
    if |a| == 0 then true
    else if |b| == 0 then false
    else if a[0] != b[0] then a[0] < b[0]
    else StrLe(a[1..], b[1..])
  }

  lemma StrLeTotal(a: string, b: string)
    ensures StrLe(a, b) || StrLe(b, a)
  {
  }

  lemma StrLeAntisymmetric(a: string, b: string)
    requires StrLe(a, b) && StrLe(b, a)
    ensures a == b
  {
    if |a| > 0 && |b| > 0 && a[0] == b[0] {
      StrLeAntisymmetric(a[1..], b[1..]);
      assert a == [a[0]] + a[1..] && b == [b[0]] + b[1..];
    }
  }

  lemma StrLeTransitive(a: string, b: string, c: string)
    requires StrLe(a, b) && StrLe(b, c)
    ensures StrLe(a, c)
  {
    if |a| > 0 && |b| > 0 && |c| > 0 && a[0] == b[0] && b[0] == c[0] {
      StrLeTransitive(a[1..], b[1..], c[1..]);
    }
  }

  predicate Sorted(s: seq<string>) {
    forall i, j :: 0 <= i < j < |s| ==> StrLe(s[i], s[j])
  }

  lemma StrLeReflexive(a: string)
    ensures StrLe(a, a)
  {
  }

  /** Places `x` in front of the first element it does not exceed. */
  function Insert(x: string, s: seq<string>): (r: seq<string>)
    ensures multiset(r) == multiset(s) + multiset{x}
  {
    if |s| == 0 then [x]
    else if StrLe(x, s[0]) then [x] + s
    else
      assert s == [s[0]] + s[1..];
      [s[0]] + Insert(x, s[1..])
  }

  lemma {:induction false} InsertSorted(x: string, s: seq<string>)
    requires Sorted(s)
    ensures Sorted(Insert(x, s))
  {
    if |s| == 0 {
    } else if StrLe(x, s[0]) {
      forall j | 0 < j < |s| ensures StrLe(x, s[j]) {
        StrLeTransitive(x, s[0], s[j]);
      }
    } else {
      StrLeTotal(x, s[0]);
      InsertSorted(x, s[1..]);
      var rest := Insert(x, s[1..]);
      forall y | y in rest ensures StrLe(s[0], y) {
        assert y in multiset(rest);
        assert y in s[1..] || y == x;
      }
      var r := [s[0]] + rest;
      forall i, j | 0 <= i < j < |r| ensures StrLe(r[i], r[j]) {
        if i == 0 { assert r[j] in rest; }
        else { assert r[i] == rest[i - 1] && r[j] == rest[j - 1]; }
      }
    }
  }

  /** `s.sort`. */
  function Sort(s: seq<string>): (r: seq<string>)
    ensures multiset(r) == multiset(s)
    ensures Sorted(r)
  {
    if |s| == 0 then []
    else
      assert s == [s[0]] + s[1..];
      InsertSorted(s[0], Sort(s[1..]));
      Insert(s[0], Sort(s[1..]))
  }

  /** The first element of a sorted sequence is at most any of its elements. */
  lemma SortedHeadLeast(s: seq<string>, x: string)
    requires Sorted(s) && x in multiset(s)
    ensures StrLe(s[0], x)
  {
    var i :| 0 <= i < |s| && s[i] == x;
    StrLeReflexive(x);
    if i > 0 { assert StrLe(s[0], s[i]); }
  }

  /** Two sequences with one multiset and one first element have one multiset of tails. */
  lemma MultisetTails(a: seq<string>, b: seq<string>)
    requires |a| > 0 && |b| > 0 && a[0] == b[0]
    requires multiset(a) == multiset(b)
    ensures multiset(a[1..]) == multiset(b[1..])
  {
    assert a == [a[0]] + a[1..] && b == [b[0]] + b[1..];
    assert multiset(a) == multiset([a[0]]) + multiset(a[1..]);
    assert multiset(b) == multiset([b[0]]) + multiset(b[1..]);
    assert multiset(a[1..]) == multiset(a) - multiset([a[0]]);
    assert multiset(b[1..]) == multiset(b) - multiset([b[0]]);
  }

  /** A sorted arrangement of a multiset of strings is unique. */
  lemma {:induction false} SortedUnique(a: seq<string>, b: seq<string>)
    requires Sorted(a) && Sorted(b)
    requires multiset(a) == multiset(b)
    ensures a == b
  {
    if |a| == 0 {
      assert |multiset(b)| == 0;
    } else {
      assert |b| > 0 by { assert |multiset(b)| == |multiset(a)| > 0; }
      assert a[0] in multiset(b) && b[0] in multiset(a) by {
        assert a[0] in multiset(a) && b[0] in multiset(b);
      }
      SortedHeadLeast(b, a[0]);
      SortedHeadLeast(a, b[0]);
      StrLeAntisymmetric(a[0], b[0]);
      MultisetTails(a, b);
      assert Sorted(a[1..]) && Sorted(b[1..]);
      SortedUnique(a[1..], b[1..]);
      assert a == [a[0]] + a[1..] && b == [b[0]] + b[1..];
    }
  }

  /** `a.sort == b.sort` exactly when `a` and `b` hold the same strings with the same multiplicities. */
  lemma SortEqualIffPermutation(a: seq<string>, b: seq<string>)
    ensures Sort(a) == Sort(b) <==> multiset(a) == multiset(b)
  {
    if multiset(a) == multiset(b) {
      SortedUnique(Sort(a), Sort(b));
    }
  }
}

=== FILE: ruby_string.dfy ===
/**
 The few Ruby `String` operations the entry provider relies on: `downcase` on
 attribute names and `split` on the distinguished name.
 */
module RubyString {

  /** `String#downcase` on one character, restricted to the ASCII letters. */
  function LowerChar(c: char): char {
    if 'A' <= c <= 'Z' then (c as int + 32) as char else c
  }

  /** True iff `s` has no upper-case ASCII letter, i.e. `s.downcase == s`. */
  predicate IsLower(s: string) {
    forall i :: 0 <= i < |s| ==> !('A' <= s[i] <= 'Z')
  }

  /** `String#downcase`. */
  function Lower(s: string): (r: string)
    ensures |r| == |s|
    ensures IsLower(r)
    ensures IsLower(s) ==> r == s
    ensures forall i :: 0 <= i < |s| ==> r[i] == s[i] || ('A' <= s[i] <= 'Z' && r[i] as int == s[i] as int + 32)
  {
    seq(|s|, i requires 0 <= i < |s| => LowerChar(s[i]))
  }

  /** A name that differs from another once both are lower-cased differs from the other's lower-cased form. */
  lemma LowerApart(a: string, b: string)
    requires Lower(a) != Lower(b)
    ensures a != Lower(b)
  {
    assert Lower(Lower(b)) == Lower(b);
  }

  /** `names.map { |k| k.downcase.to_s }`. */
  function LowerAll(names: seq<string>): (r: seq<string>)
    ensures |r| == |names|
    ensures forall i :: 0 <= i < |names| ==> r[i] == Lower(names[i])
    ensures forall x :: x in r ==> IsLower(x)
    ensures (forall i :: 0 <= i < |names| ==> IsLower(names[i])) ==> r == names
  {
    seq(|names|, i requires 0 <= i < |names| => Lower(names[i]))
  }

  /**
   The fields of `s` between occurrences of `sep`, keeping empty fields:
   `s.split(sep, -1)`.
   */
  function Fields(s: string, sep: char): (r: seq<string>)
    ensures |r| >= 1
    ensures forall i :: 0 <= i < |r| ==> sep !in r[i]
    ensures Join(r, sep) == s
    ensures r[0] <= s && (|r[0]| == |s| || s[|r[0]|] == sep)
    ensures (forall i :: 0 <= i < |r| ==> r[i] == []) <==> (forall j :: 0 <= j < |s| ==> s[j] == sep)
  {
    if |s| == 0 then [[]]
    else
      var rest := Fields(s[1..], sep);
      if s[0] == sep then
        assert Join([[]] + rest, sep) == [] + [sep] + Join(rest, sep);
        [[]] + rest
      else
        var r := [[s[0]] + rest[0]] + rest[1..];
        assert |rest| > 1 ==> Join(rest, sep) == rest[0] + [sep] + Join(rest[1..], sep);
        assert |rest| > 1 ==> Join(r, sep) == r[0] + [sep] + Join(rest[1..], sep);
        r
  }

  /** The inverse of `Fields`: the parts joined with `sep` between them. */
  function Join(parts: seq<string>, sep: char): string
    requires |parts| >= 1
  {
    if |parts| == 1 then parts[0] else parts[0] + [sep] + Join(parts[1..], sep)
  }

  /** Ruby drops the trailing empty fields of a split made without a limit. */
  function DropTrailingEmpty(parts: seq<string>): (r: seq<string>)
    ensures r <= parts
    ensures r == [] <==> forall i :: 0 <= i < |parts| ==> parts[i] == []
    ensures r != [] ==> r[|r| - 1] != []
  {
    if |parts| == 0 then []
    else if parts[|parts| - 1] == [] then DropTrailingEmpty(parts[..|parts| - 1])
    else parts
  }

  /** `s.split(sep)` for a one-character separator other than a space. */
  function Split(s: string, sep: char): (r: seq<string>)
    ensures forall i :: 0 <= i < |r| ==> sep !in r[i]
    ensures r == [] <==> forall j :: 0 <= j < |s| ==> s[j] == sep
    ensures r != [] ==> r[0] <= s && (|r[0]| == |s| || s[|r[0]|] == sep)
  {
    DropTrailingEmpty(Fields(s, sep))
  }
}

=== FILE: wrappers.dfy ===
/** The conventional Some/None datatype, standing in for a Ruby value that may be nil. */
module Wrappers {

  datatype Option<+T> = None | Some(value: T)
}
